=== FILE: README.md ===
# ProjectPilot back end: the decision layer, in Dafny

ProjectPilot's back end is an Express/Mongoose REST API for project management. This project models its decision layer:

- the request schemas (Joi) and the record models (Mongoose), each as predicates and record constructors;
- the `authenticate` middleware and its role gates (`isAdmin`, `isPM`);
- the project, work, deliverable, activity and user services;
- the user controller's body filtering and responses.

The database is a `Db.Store` of five finite maps from id to record: users, projects, works, deliverables and activities. Every service is a pure function of the form

    (store, caller, input) -> Result<(store', output)>

A failure carries the HTTP status and message the client receives. A failure writes nothing: an `Err` result has no store in it.

## Module map

| module | file | models |
|---|---|---|
| `Wrappers` | wrappers.dfy | `Option`; `Result` with `HttpError(status, message)`. An error that carries no status answers 500, as the default error handler does. |
| `Json`, `Text` | json.dfy, text.dfy | JSON values and documents; JavaScript truthiness and object spread; `trim`, `startsWith`, `split(" ")` |
| `Joi` | joi.dfy | the Joi rules the schemas are built from |
| `UserModel` | usermodel.dfy | `models/userModel.js`: the user record, the e-mail pattern, and the route schemas |
| `UserSchemas` | userschemas.dfy | `schemas/userSchemas.js` |
| `ProjectModel`, `ProjectSchemas` | projectmodel.dfy, projectschemas.dfy | the project record (phase assignments `acs`, defaults) and its two schemas |
| `WorkModel`, `DeliverableModel`, `ActivityModel` | childmodels.dfy | the three planning records, their defaults and how an update document applies to them |
| `WorkSchemas`, `DeliverableSchemas`, `ActivitySchemas` | childschemas.dfy | their Joi schemas |
| `PlanningSchemas` | planningschemas.dfy | `schemas/planningSchemas.js` |
| `Db`, `Access` | access.dfy | the store; the phase gate (`checkPlanningAccess` and the inline copies); the project-manager gate |
| `ProjectServices` | projectservices.dfy | `services/projectServices.js` |
| `WorkServices`, `DeliverableServices`, `ActivityServices` | childservices.dfy | the three planning services |
| `UserServices` | userservices.dfy | `services/userServices.js`, and `generateTokens` as a store write |
| `Authenticate` | authenticate.dfy | `middleware/authenticate.js` |
| `UserController` | usercontroller.dfy | `controllers/userController.js` |

## Library calls as parameters

Library calls the model cannot see are passed in as uninterpreted parameters:

- `validId`: mongoose `isValidObjectId`, and the cast that `findById` performs.
- `objectIdValid`: `Types.ObjectId.isValid`, used inside the Joi custom rules.
- `hash` and `compare`: bcrypt.
- `verify` and `verifyRefresh`: `jwt.verify` with the access secret and with the refresh secret.
- `isEmail`: Joi's `.email()`.

Fresh ids, freshly signed tokens, "now" and today's date are parameters too. A fresh id is required to be absent from its map.

## Model

| member | source | states |
|---|---|---|
| `Text.SplitJoin` | middleware/authenticate.js:8 | Splitting at a separator and joining the pieces with it gives back the header unchanged, so the pieces `split(" ")` yields are exactly the text between spaces. |
| `Text.TrimProperties` | schemas/userSchemas.js:6-9 | A trimmed string is no longer than the original, has no white space at either end, and trimming it again changes nothing. |
| `UserModel.EmailRegexpByIndex` | models/userModel.js:4 | `^\S+@\S+\.\S+$` holds iff the string has no white space and has an `@` after its first character, then a `.` at least two places later and before the last character. |
| `UserModel.MatchEmailRegexp` | models/userModel.js:4 | The scanning matcher answers true exactly when the pattern holds. |
| `UserModel.NewUser` | models/userModel.js:26-41 | A created user has the given e-mail, password hash, name and phone. Admin and pm are false unless given as true. Token and refresh token start null. |
| `UserModel.ToObject` | models/userModel.js:6-47 | `toObject()` lays out the public fields plus exactly the three secrets: password, token and refresh token. |
| `UserModel.LoginAndAddAgree` | models/userModel.js:49-61 | Every login body passes the add schema. The e-mail and password of every add body form a login body. |
| `UserModel.UpdateUserSchemaKeysOptional` | models/userModel.js:67-76 | The empty body passes `updateUserSchema`, and removing any key from a passing body keeps it passing. |
| `UserSchemas.UpdatePasswordAccepted` | schemas/userSchemas.js:26-37 | An update password passes iff, once trimmed, it is empty or 4 to 22 characters long. |
| `UserSchemas.UpdateAllowsEmptyStrings` | schemas/userSchemas.js:23-41 | Name, e-mail, phone and password may all be sent as "". |
| `UserSchemas.UpdateKeysOptional` | schemas/userSchemas.js:23-41 | Every update key is optional. |
| `UserSchemas.PasswordBounds` | schemas/userSchemas.js:5-17 | An add password is 4 to 22 characters once trimmed. A login password is 4 to 22 characters as sent. |
| `ProjectModel.AcsFrom` | models/projectModel.js:24-45 | Each of the five phase lists is read from its key. A missing list defaults to empty. |
| `ProjectModel.ProjectFromDoc` | models/projectModel.js:9-49 | A project is created iff name and pm are given; otherwise the validation error answers 500. Start date defaults to today, every `acs` list to empty, and `closed` to false. |
| `ProjectModel.ApplyProjectUpdate` | services/projectServices.js:61 | A given name, pm, start date, `acs` object or `closed` flag of its declared type takes the new value. Any other value, or an absent key, keeps the stored one. The phase sections are untouched. |
| `WorkModel.WorkFromDoc` | models/workModel.js:3-20 | A work needs a name and a project, or creation fails with 500. A given description, child list or deliverable is stored. Otherwise the description defaults to "", the child list to empty, and the deliverable to null. |
| `WorkModel.DeliverableRef` | models/workModel.js:10-14 | `deliverable` may be set to null or to an id. Any other value leaves it as it was. |
| `WorkModel.ApplyWorkUpdate` | services/workService.js:41 | A given name, description, child list, deliverable (an id, or null to clear it) or project takes the new value. Any other value, or an absent key, keeps the stored one. |
| `DeliverableModel.DeliverableFromDoc` | models/deliverableModel.js:3-11 | A deliverable needs a name and a project. A given description is stored, and otherwise it defaults to "". The project is its only reference. |
| `DeliverableModel.ApplyDeliverableUpdate` | services/deliverableService.js:37 | A given name, description or project string takes the new value. Any other value, or an absent key, keeps the stored one. |
| `ActivityModel.ActivityFromDoc` | models/activityModel.js:3-29 | An activity needs a work package, a name and a project, and every given predecessor must cast to an object id; otherwise creation fails with 500. Given descriptions, lists and duration are stored; the predecessor list element for element. Otherwise both scope descriptions default to "", both lists to empty, and the duration to 0. |
| `ActivityModel.ApplyActivityUpdate` | services/activityService.js:42 | The update fails with 500 iff a given predecessor does not cast to an object id. Otherwise every given field of its declared type (the strings, the duration, both lists) takes the new value, the predecessors element for element. Any other value, or an absent key, keeps the stored one. |
| `ProjectSchemas.UpdateRelaxesCreate` | schemas/projectSchemas.js:11-30 | Every create body is an update body. The empty body and every sub-body of an update body are update bodies. No accepted body has a `pm` key. |
| `ProjectSchemas.AcsElementsAreIds` | schemas/projectSchemas.js:14-20 | Every element of every `acs` list in an accepted body is a valid object id string. |
| `WorkSchemas.WorkBodies` | schemas/workSchemas.js:11-25 | A create body has a name and a valid project id. An update body has no `project` key. A given `work` is a list. `deliverable` may be null and `description` may be "". The empty body is an update body. |
| `DeliverableSchemas.DeliverableBodies` | schemas/deliverableSchemas.js:11-21 | A create body has a valid project id. The update body has no `project` key. Every update key is optional. |
| `ActivitySchemas.ActivityBodies` | schemas/activitySchemas.js:4-17 | Every accepted body carries a name and a project. A given duration is at least 0, and a given work package is a valid id. The project and the predecessor ids are not checked as ids. |
| `PlanningSchemas.EstimateCostsNonNegative` | schemas/planningSchemas.js:67-132 | Every cost estimate names a valid activity. Every cost, given or defaulted, and every `costOfActivity` is at least 0. |
| `PlanningSchemas.BudgetNonNegative` | schemas/planningSchemas.js:134-144 | The cost baseline is at least 0. Every funding entry has a period and a cost of at least 0. |
| `PlanningSchemas.ExpectedUseNonNegative` | schemas/planningSchemas.js:156-168 | Every given `expectedUse` is at least 0. |
| `PlanningSchemas.WBSBody` | schemas/planningSchemas.js:43-45 | `createWBS` accepts exactly a body whose only key, `WBS`, holds a list of valid id strings. |
| `PlanningSchemas.RequirementsBody` | schemas/planningSchemas.js:25-34 | Every requirement item names both its requirement and its documentation, as non-empty strings. |
| `PlanningSchemas.ScopeBody` | schemas/planningSchemas.js:36-41 | An accepted `defineScope` body has a non-empty end-product description. Its given acceptance criteria and exclusions are non-empty lists of non-empty strings, because a required item type refuses the empty list. |
| `PlanningSchemas.ScheduleBody` | schemas/planningSchemas.js:47-55 | An accepted schedule plan gives all five of its strings. |
| `Access.SomeEqualsIsMembership` | services/workService.js:15 | The `some(uid => uid === id)` scan is true exactly for the members of the list. |
| `Access.PhaseAllowedIff` | services/workService.js:12-15 | The phase predicate holds iff the caller is admin, is the project's pm, or is listed for that phase. |
| `Access.CheckPhaseAccess` | services/activityService.js:6-21 | A malformed id gives 404 "Invalid project ID", then a missing project gives 404 "Project not found". Otherwise an admin, the pm or a member of the phase list gets the loaded project, and anyone else gets 403 naming the phase. |
| `Access.CheckPlanningAccessOf` | services/workService.js:6-19 | The planning gate applied to a body's `project`. A value that is not a string is read as not an id, so it gives 404; the route schemas reject such bodies. |
| `Access.CheckProjectManager` | services/projectServices.js:18-39 | A malformed id or a missing project gives 404, before any role check. Only an admin or the pm passes. Anyone else gets 401, or 500 when the manager's user record is gone. |
| `Access.ManagerGateIgnoresAssignments` | services/projectServices.js:57-59 | The project-manager gate passes iff the caller is admin or pm. Rewriting the project's `acs` never changes the outcome. A refusal is 401, or 500 when the pm's user record is gone. |
| `ProjectServices.CreateProject` | services/projectServices.js:5-9 | No caller gives 401. Otherwise the project is stored under the fresh id, with the caller as pm unless the data names one, and nothing else changes. |
| `ProjectServices.CreateMakesCallerManager` | services/projectServices.js:6-8 | For every body the create schema accepts, creation succeeds and the caller is the project's manager. |
| `ProjectServices.GetProjectById` | services/projectServices.js:18-42 | A malformed id or a missing project gives 404. Success, for an existing caller, is exactly admin-or-pm, and it returns the stored project. |
| `ProjectServices.UpdateProject` | services/projectServices.js:44-64 | The same 404s and the same gate. On success only that project changes, by applying the data. |
| `ProjectServices.UpdateKeepsManager` | services/projectServices.js:44-64 | An update the schema accepts never changes the project's pm or its charter. |
| `ProjectServices.ManagerVerdictsAgree` | services/projectServices.js:18-86 | Reading, updating and deleting a project succeed together for the same caller. For a well-formed id they fail with the same error. A malformed id is 404 for all three. |
| `ProjectServices.DeleteProject` | services/projectServices.js:66-86 | A malformed id gives 404 "User not found", and a missing project gives 404. On success only that project is removed, and it is returned as it was. |
| `ProjectServices.MergeSection` | services/projectServices.js:104-107 | Shallow merge: update keys take the update's values, every other section key keeps its value, and no other key appears. |
| `ProjectServices.MergeIdempotent` | services/projectServices.js:104-107 | Merging the same updates twice equals merging them once. |
| `ProjectServices.UpdateProjectCharter` | services/projectServices.js:88-111 | Succeeds iff the initiating-phase gate passes, and otherwise fails exactly as the gate does. On success the charter becomes the merge and is returned, and nothing else changes. |
| `ProjectServices.UpdateStakeholders` | services/projectServices.js:113-136 | The same for the stakeholder section. |
| `ProjectServices.CharterAccessAndIdempotence` | services/projectServices.js:95-110 | For an existing project, success is exactly admin, pm or initiating member; anyone else gets 403 from both section updates. Repeating a successful charter update changes nothing. |
| `ProjectServices.CloseProject` | services/projectServices.js:138-172 | Succeeds iff the closing-phase gate passes. `closed` becomes the truthiness of `updates.closed`. `closedDate` becomes the supplied date if truthy, else now, and null when reopening. Every other key of the section is kept. |
| `ProjectServices.CloseThenReopen` | services/projectServices.js:154-165 | After a successful close, an empty body reopens the project with a null `closedDate`, and no other project changes. |
| `WorkServices.CreateWork` | services/workService.js:21-24 | An access failure is passed on unchanged. Creation succeeds iff access passes and the record's required fields are given. Only the new work is added, under the given project, and it is the record built from the body. |
| `WorkServices.CreateAcceptedBody` | services/workService.js:21-24 | A body the create schema accepts, with planning access, is always created under the project it names. |
| `WorkServices.WorksOfProject` | services/workService.js:26-29 | After the gate, the result is exactly the works whose project is the given one, with their stored values. |
| `WorkServices.NormalizeWorkList` | services/workService.js:37-39 | A truthy `work` that is not an array becomes a one-element list. Arrays, falsy values and every other key are untouched. |
| `WorkServices.NormalizeIdempotent` | services/workService.js:37-39 | Normalising twice equals normalising once. A body the update schema accepts is already normal. |
| `WorkServices.UpdateWork` | services/workService.js:31-44 | A malformed id gives 500 (the cast fails) and a missing work gives 404, both before the gate on the stored work's project. On success only that work changes. Its project stays pinned, and a single child id is stored as a list. A given name, description or deliverable is stored, and absent ones keep their values. |
| `WorkServices.DeleteWork` | services/workService.js:46-53 | The same order of checks. On success only that work is removed, and it is returned as it was. |
| `WorkServices.DeleteThenListWorks` | services/workService.js:26-53 | After a delete, the project's listing is the listing before, less the deleted work. |
| `WorkServices.UpdateKeepsListing` | services/workService.js:35 | An update never moves a work into or out of any project's listing. |
| `DeliverableServices.CreateDeliverable` | services/deliverableService.js:21-24 | An access failure is passed on unchanged. Otherwise only the new deliverable is added, under the named project. It is the record built from the body: the given name, and the given description or "". |
| `DeliverableServices.CreateAcceptedBody` | services/deliverableService.js:21-24 | A body the create schema accepts, from a caller the gate passes, creates the deliverable with its name under the project it names. |
| `DeliverableServices.DeliverablesOfProject` | services/deliverableService.js:26-29 | After the gate, exactly the deliverables of that project. |
| `DeliverableServices.UpdateDeliverable` | services/deliverableService.js:31-40 | A missing deliverable gives 404 before the gate. On success the project is pinned, a given name or description is stored, absent keys keep their values, and only that record changes. |
| `DeliverableServices.UpdateThenList` | services/deliverableService.js:26-40 | After an update, the project's listing holds the record as updated, with the body's name when it gives one. |
| `DeliverableServices.DeleteDeliverable` | services/deliverableService.js:42-49 | A missing deliverable gives 404 before the gate. On success only that record is removed, and it is returned as it was. |
| `DeliverableServices.DeleteThenList` | services/deliverableService.js:42-49 | After a delete, the project's listing lacks the deleted record and keeps all of its siblings. |
| `ActivityServices.CreateActivity` | services/activityService.js:23-26 | An access failure is passed on unchanged. Creation succeeds iff access passes, the work package, name and project are given, and every predecessor casts to an object id. Only the new activity is added, and it is the record built from the body. |
| `ActivityServices.SchemaAndRecordDisagree` | models/activityModel.js:4-15 | The schema lets `workPackage` be omitted and takes any strings as predecessors, but the record requires a work package and casts predecessors to object ids. So an accepted body without a work package, or with a non-id predecessor, fails with 500 after access passes. |
| `ActivityServices.ActivitiesOfProject` | services/activityService.js:28-33 | After the gate, exactly the activities of that project. |
| `ActivityServices.UpdateActivity` | services/activityService.js:35-43 | A missing activity gives 404 before the gate. It succeeds iff the gate passes and every given predecessor casts to an object id; a gate failure is passed on, and a cast failure after it gives 500. On success the project is pinned, the body's strings, duration and lists are stored, and only that record changes. |
| `ActivityServices.DeleteActivity` | services/activityService.js:45-52 | A missing activity gives 404 before the gate. On success only that record is removed, and it is returned as it was. |
| `ActivityServices.ListingDecidesWrites` | services/activityService.js:6-21 | For an existing activity, delete succeeds exactly when listing its project does, and update exactly when listing does and the predecessors cast. When listing is refused, update fails with the same error. |
| `UserServices.AddUser` | services/userServices.js:8-30 | A taken e-mail gives 409 and creates nothing. Otherwise the user is stored with `hash(password)`, never the plain text, and the other fields given. E-mail uniqueness is preserved. |
| `UserServices.IssueTokens` | services/jwtServices.js:21-36 | Both new tokens are stored on the user and the updated user is returned. A missing user gives null and changes nothing. |
| `UserServices.Login` | services/userServices.js:32-40 | Every failure is 401 "Email or password is wrong", whether the e-mail is unknown or the password does not match. On success only the matched user's two tokens change. |
| `UserServices.AddThenLogin` | services/userServices.js:20-39 | A freshly added user logs in with the same password and holds the newly issued tokens. |
| `UserServices.Logout` | services/userServices.js:42-47 | Both of the caller's tokens become null, and the rest of the store is exactly as it was. An unknown id changes nothing. |
| `UserServices.LogoutIdempotent` | services/userServices.js:42-47 | Logging out twice equals logging out once. |
| `UserServices.RegenerateTokens` | services/userServices.js:63-66 | No current user gives 401. Otherwise the same store write as a login. |
| `UserServices.ApplyUserUpdate` | services/userServices.js:55-57 | Each given key of its declared type takes the new value: e-mail, password, the two roles, and the optional strings name, phone, avatar URL and tokens, which `null` clears. Any other value, or an absent key, keeps the stored one. The empty update changes nothing. |
| `UserServices.Patch` | services/userServices.js:55-60 | A missing user yields null with no change. An e-mail clash fails with 501. Otherwise only that user changes, keys are kept, and e-mail uniqueness is preserved. |
| `UserServices.UpdateUserAsWritten` | services/userServices.js:49-61 | As written: no user gives 401, and any truthy password fails with 500. |
| `UserServices.UpdateUser` | services/userServices.js:49-61 | Corrected: a password string is stored hashed. Every success is the store update applied to the body with its password hashed. |
| `UserServices.DeleteUser` | services/userServices.js:78-100 | A malformed id gives 404. Deleting oneself gives 409 before anything is removed. A missing user gives 404. On success only that user is removed, and it is returned as it was. E-mail uniqueness is preserved. |
| `UserServices.Rewrap` | services/userServices.js:120-122 | Every error becomes 501. A success passes through. |
| `UserServices.EditUserAsWritten` | services/userServices.js:102-123 | As written, every failure is 501, including the self-edit refusal. |
| `UserServices.EditUser` | services/userServices.js:102-123 | Corrected: a malformed id gives 404 and a self-edit gives 409. A password is stored hashed. The editor's own record never changes. |
| `UserServices.PasswordChangeFailsAsWritten` | services/userServices.js:51-53 | As written, every password change fails with 500. Corrected, it stores `hash(p)`. |
| `UserServices.EditSelfIs501AsWritten` | services/userServices.js:110-122 | As written, a self-edit answers 501 and an edit of another user's password fails. Corrected, they answer 409 and succeed. |
| `UserServices.SafeUserClone` | services/userServices.js:68-71 | Removes exactly `token`, `refreshToken` and `password`, and keeps every other field with its value. |
| `UserServices.SafeUser` | services/userServices.js:68-71 | A user's safe clone holds no secret key and is exactly its public fields. |
| `UserServices.SafeUserHidesSecrets` | services/userServices.js:68-71 | The safe clone shows the user's id, e-mail and roles, and it does not depend on the password or tokens at all. |
| `Authenticate.BearerToken` | middleware/authenticate.js:6-8 | A token is taken only from a header starting with "Bearer". It is the second space-separated piece, and it must be non-empty. |
| `Authenticate.BearerRoundTrip` | middleware/authenticate.js:6-8 | The header `Bearer <t>` yields `t` back. |
| `Authenticate.CurrentSession` | middleware/authenticate.js:10-19 | Accepts iff the id decodes, names a stored user, and that user's stored token equals the presented one. A malformed id answers 500, anything else 401. |
| `Authenticate.Authenticate` | middleware/authenticate.js:4-23 | The same condition for the bearer access token. Every other refusal is 401. |
| `Authenticate.AuthenticateRefresh` | middleware/authenticate.js:25-41 | The same condition for the body's refresh token, compared with the stored refresh token. |
| `Authenticate.IsAdmin` | middleware/authenticate.js:43-56 | Passes iff admin. Otherwise 401, not 403. |
| `Authenticate.IsPM` | middleware/authenticate.js:58-71 | Passes iff pm or admin. Otherwise 401. |
| `Authenticate.AdminPassesBothGates` | middleware/authenticate.js:47-67 | Every admin passes the pm gate. Only a non-admin who is not a pm fails it. |
| `Authenticate.LogoutRevokes` | middleware/authenticate.js:13 | After logout, every access or refresh token that names the user is refused with 401. |
| `Authenticate.RefreshRotates` | services/userServices.js:63-66 | After `refreshTokens`, the new refresh token is accepted for the user, and any other one decoding to that user is refused with 401. |
| `Authenticate.DeleteRevokes` | services/userServices.js:90 | After a user is deleted, every access or refresh token naming that user is refused with 401. |
| `Authenticate.IssuedTokenAuthenticates` | middleware/authenticate.js:13 | After tokens are issued, the new access token authenticates the user and an earlier one is refused with 401. |
| `UserController.RemoveEmptyProps` | controllers/userController.js:44-56 | Drops exactly the entries that are undefined, null, "" or an empty array. Every kept entry has its input value, and no key is added. |
| `UserController.RemoveEmptyPropsByReduce` | controllers/userController.js:44-56 | The entry-by-entry reduce computes the same document as the filter's definition. |
| `UserController.RemoveEmptyPropsIdempotent` | controllers/userController.js:46-53 | Filtering twice equals filtering once. `false`, `0` and non-empty arrays are kept, and no kept value is empty. |
| `UserController.Add` | controllers/userController.js:15-22 | Succeeds exactly when the add service does, and answers 200 with the new user's safe clone. A taken e-mail answers 409. |
| `UserController.LoginResponse` | controllers/userController.js:24-33 | 401 with the one message, or 200 carrying the two new tokens and no secret. |
| `UserController.LogoutResponse` | controllers/userController.js:35-38 | 204 with no body, after the logout write. |
| `UserController.Current` | controllers/userController.js:40-42 | 200 with the caller's public fields only. |
| `UserController.RefreshTokens` | controllers/userController.js:79-82 | Succeeds iff the caller exists. It stores and returns the two new tokens. |
| `UserController.All` | controllers/userController.js:84-89 | 200 with one safe clone per user, in order, none of them holding a secret. |
| `UserController.DeleteUserResponse` | controllers/userController.js:91-98 | Fails exactly as the delete service does. Otherwise 200 with the safe clone and "User was deleted". |
| `UserController.UpdateBody` | controllers/userController.js:62-73 | The filtered body, with an uploaded avatar's URL overriding any `avatarURL` in it. |
| `UserController.UpdateUserRequest` | controllers/userController.js:58-77 | Corrected (over `UserServices.UpdateUser`): no field the body sends empty overwrites its stored value (`avatarURL` aside when a file is uploaded). An uploaded avatar is stored. Only the caller's record changes, and the reply hides secrets. |
| `UserController.EditUserRequest` | controllers/userController.js:100-115 | Corrected (over `UserServices.EditUser`): a malformed id gives 404 and a self-edit gives 409. No field the body sends empty overwrites its stored value, and the editor's own record is untouched. |
| `UserController.UpdateUserRequestAsWritten` | controllers/userController.js:58-77 | As written: a non-empty password in the body fails with 500. A success never changes the caller's password, stores an uploaded avatar, changes no other user, and hides secrets in the reply. |
| `UserController.UpdateRequestTwinsAgree` | controllers/userController.js:58-77 | Without a new password, the update request as written and as corrected are the same request. |
| `UserController.EditUserRequestAsWritten` | controllers/userController.js:100-115 | As written: a malformed id, a self-edit and a non-empty new password all fail with 501, and every other failure is 501 or 500. A success changes no password and leaves the editor's record alone. |
| `UserController.EditRequestTwinsAgree` | controllers/userController.js:100-115 | Every edit the as-written request lets through is the corrected request's edit. |
| `UserController.SelfPromotion` | routes/userRouter.js:29-34 | `updateUserSchema` admits `admin`, so any signed-in user can make themself admin through `/update`. |

## Decisions where the source is silent or ambiguous

- **Errors without a status.** A cast error, a validation error, a `TypeError` or a `ReferenceError` carries no status. The error handler in app.js:45-48 answers it with 500.
- **Planning routes are not wrapped.** The work, deliverable and activity controllers do not wrap their services in `errorHandling`. The model still gives the status the error handler would assign, although under Express 4 a rejected handler would leave the request unanswered.
- **Malformed child ids.** For work, deliverable and activity updates and deletes, a malformed id makes `findById` throw a cast error, so it answers 500, not 404.
- **`validateBody` is not part of this model.** It is taken to validate only, not to replace `req.body` with Joi's converted value.
- **Predecessor ids are cast.** `activitySchema` (schemas/activitySchemas.js:13) admits any strings as predecessors, but the record types them as object ids (models/activityModel.js:12-15). So `Activity.create` and `findByIdAndUpdate` fail with a cast error, answered 500, when one of them is not an id. The model checks this with the same `validId` that decides `findById`.
- **Other type mismatches.** For the other fields, a value of the wrong JSON type is read as absent. The route schemas already reject such bodies.
- **A create body whose `project` is not a string** is read as not an object id, so the planning gate answers 404 "Invalid project ID". Mongoose's `isValidObjectId` accepts some numbers, which would give 404 "Project not found" instead. No route reaches this case, because every create schema requires a string `project`.
- **Activity updates are not rechecked.** `updateActivityService` returns what the store returns, with no second not-found check. That check only matters when a record is deleted concurrently, which this model leaves out, so the model returns the updated record.
- **Phase sections.** The charter, the stakeholder register and the closure section are not declared in the project model. They are abstract documents on `Project`. `closeProject` writes only the `closedDate` key of the closure section. As written, `initiating` and `closing` are not paths of the project model. So `project.initiating.integration…` (services/projectServices.js:104 and 129) and `project.closing.integration…` (services/projectServices.js:156-164) would throw a `TypeError`, answered 500, once the gate has passed. "Succeeds iff the gate passes" holds for the abstract sections only.
- **Two user schema files.** The user routes validate against the schemas in models/userModel.js. schemas/userSchemas.js is modelled as well (`UserSchemas`), although no route uses it.
- **A missing project manager.** `getProjectById`, `updateProject` and `deleteProject` read `project.pm.id` from the populated pm. If that user has been deleted, a non-admin caller hits a `TypeError`, which answers 500.

## Left out

- JWT signing, secrets and expiry: a token is an opaque string, and `verify` stands for a successful `jwt.verify`.
- bcrypt salting and cost: `hash` and `compare` are parameters.
- Jimp image processing and file writes (services/imgServices.js): an upload is just its resulting `avatarURL`.
- Mongoose behaviour:
  - `populate` and field projections;
  - timestamps;
  - strict-mode dropping of unknown keys;
  - the unique index on e-mail as an index. It is modelled only as the 501 store error that `UserServices.Patch` raises on a clash. On create, the service's own 409 check in `UserServices.AddUser` comes first. A racing duplicate insert falls under the concurrency item below.
- `getAllProjects` (services/projectServices.js:11-16): a projection and populate over every project, with no decision to model.
- `allUserDataService` (services/userServices.js:73-76): a plain `find()`; the controller's `All` takes the user list as its input.
- Listing order: `WorkServices.WorksOfProject`, `DeliverableServices.DeliverablesOfProject` and `ActivityServices.ActivitiesOfProject` return maps keyed by id. The order of the array that `find` returns is unspecified and is not modelled.
- Concurrency: the load-modify-save sequences are not atomic, and lost updates between requests are not modelled.
- Joi's type conversion ("5" to 5, "true" to true), and string lengths in UTF-16 code units rather than characters.
- NaN and other floating-point corner cases: numbers are reals.
- The clock: `new Date()` and `localDate()` are the `now` and `today` parameters.
- Express routing, Swagger comments and the pass-through controllers of projects, works, deliverables and activities.
- Mongoose's casting of the other typed fields: the model reads a value of the wrong JSON type as absent, where Mongoose would convert it or fail with a cast error. The route schemas reject such bodies before a service runs. The work package, work list and deliverable ids are not cast-checked. Their schemas admit only ids that pass `Types.ObjectId.isValid`. That such ids also cast is an assumption about Mongoose, not something the model derives: `objectIdValid` and `validId` are unrelated parameters.
- `Access.CheckProjectManager`: does not model the populated pm of a deleted user beyond "500 for a non-admin".
- `ProjectServices.UpdateProjectCharter`: writes an abstract charter section. It does not model the `TypeError` (500) that the undeclared `initiating` path would raise after the gate.
- `ProjectServices.UpdateStakeholders`: the same, for the stakeholder register.
- `ProjectServices.CloseProject`: the same, for the undeclared `closing` path.
- `UserServices.Rewrap`: keeps the caught error's message as a string. The source passes the error object itself to `HttpError` as the message, and the model does not follow how that is rendered.
- `UserController.LoginResponse` and `UserServices.Login`: ghost definitions, because `findOne` picks one of the users with that e-mail, which the model states with a choice.

## Findings

| source | as written | input that shows it | evidently intended | confidence | as-written member | corrected member |
|---|---|---|---|---|---|---|
| services/userServices.js:51-53 | the rehash reads an undeclared `password`, so it throws a `ReferenceError` outside the `try` | `PATCH /users/update` by a signed-in user with body `{"password": "abcd"}`: 500, and nothing is stored | store `bcrypt.hash(newData.password)` | high, not executed | `UserServices.UpdateUserAsWritten`, `UserServices.PasswordChangeFailsAsWritten` | `UserServices.UpdateUser` |
| services/userServices.js:113-115 | the same undeclared `password` in the edit path, where the catch turns it into 501 | a call of `editUser` (no route of routes/userRouter.js reaches it) on another user with body `{"password": "abcd"}`: 501, and nothing is stored | store the hash of the new password | high, not executed | `UserServices.EditUserAsWritten`, `UserServices.EditSelfIs501AsWritten` | `UserServices.EditUser` |
| services/userServices.js:120-122 | the catch rewraps every error, its own 404 and 409 included, as 501 | a call of `editUser` (no route reaches it) whose target id is the caller's own id: 501 instead of 409 "Can't edit current user!" | rethrow `HttpError`s as they are, like the delete path at line 98 | medium, not executed | `UserServices.Rewrap`, `UserServices.EditUserAsWritten` | `UserServices.EditUser` |

=== FILE: access.dfy ===
/** The document store: one finite map from id to record per collection. */
module Db {

  import opened Json
  import opened UserModel
  import opened ProjectModel
  import opened WorkModel
  import opened DeliverableModel
  import opened ActivityModel

  datatype Store = Store(
    users: map<Id, User>,
    projects: map<Id, Project>,
    works: map<Id, Work>,
    deliverables: map<Id, Deliverable>,
    activities: map<Id, Activity>)
}

/** Who may touch a project.

    Two gates exist. The phase gate, copied into the project, work,
    deliverable and activity services, passes an admin, the project's
    manager, or a user assigned to the phase, and denies with 403. The
    manager gate of reading, updating and deleting a whole project passes
    only an admin or the manager, and denies with 401. Both first resolve
    the project: a malformed id or a missing project is 404, decided
    before any role is looked at.
 */
module Access {

  import opened Wrappers
  import opened Json
  import opened UserModel
  import opened ProjectModel
  import opened Db

  /** The caller as the services see `req.user`: its id and role flags. */
  datatype Caller = Caller(id: Id, admin: bool, pm: bool)

  function CallerOf(id: Id, u: User): Caller {
    Caller(id, u.admin, u.pm)
  }

  /** `list.some((uid) => uid.toString() === id)` */
  function SomeEquals(list: seq<Id>, id: Id): bool {
    if |list| == 0 then false else list[0] == id || SomeEquals(list[1..], id)
  }

  /** The scan finds exactly the members of the list. */
  lemma {:induction false} SomeEqualsIsMembership(list: seq<Id>, id: Id)
    ensures SomeEquals(list, id) <==> id in list
  {
    if |list| > 0 {
      SomeEqualsIsMembership(list[1..], id);
      assert list == [list[0]] + list[1..];
    }
  }

  /** The OR-chain of every phase check. */
  predicate PhaseAllowed(user: Caller, p: Project, phase: Phase) {
    user.admin || user.id == p.pm || SomeEquals(p.acs.Members(phase), user.id)
  }

  /** The phase check grants access to an admin, to the project manager and
      to the members of that phase's list, and to no one else. */
  lemma PhaseAllowedIff(user: Caller, p: Project, phase: Phase)
    ensures PhaseAllowed(user, p, phase) <==>
      user.admin || user.id == p.pm || user.id in p.acs.Members(phase)
  {
    SomeEqualsIsMembership(p.acs.Members(phase), user.id);
  }

  const InvalidProjectId: string := "Invalid project ID"
  const ProjectNotFound: string := "Project not found"

  function PhaseDenied(phase: Phase): string {
    "Access denied: Not assigned to " + phase.Key() + " phase"
  }

  /** Load a project and apply the phase gate (`checkPlanningAccess` for
      the planning phase, the inline checks of the phase-section updates
      for the others); on success the loaded project is returned. */
  function CheckPhaseAccess(s: Store, user: Caller, projectId: Id, phase: Phase,
                            validId: Id -> bool): (r: Result<Project>)
    ensures !validId(projectId) ==> r == Throw(404, InvalidProjectId)
    ensures validId(projectId) && projectId !in s.projects ==> r == Throw(404, ProjectNotFound)
    ensures validId(projectId) && projectId in s.projects ==>
      var p := s.projects[projectId];
      if user.admin || user.id == p.pm || user.id in p.acs.Members(phase)
      then r == Ok(p)
      else r == Throw(403, PhaseDenied(phase))
  {
    if !validId(projectId) then Throw(404, InvalidProjectId)
    else if projectId !in s.projects then Throw(404, ProjectNotFound)
    else
      var p := s.projects[projectId];
      PhaseAllowedIff(user, p, phase);
      if !PhaseAllowed(user, p, phase) then Throw(403, PhaseDenied(phase))
      else Ok(p)
  }

  /** `checkPlanningAccess(user, data.project)` on a create body: only a
      string can name a project, any other value is a malformed id. */
  function CheckPlanningAccessOf(s: Store, user: Caller, projectRef: Value, validId: Id -> bool)
    : (r: Result<Project>)
    ensures projectRef.Str? ==> r == CheckPhaseAccess(s, user, projectRef.s, Planning, validId)
    ensures !projectRef.Str? ==> r == Throw(404, InvalidProjectId)
  {
    if projectRef.Str? then CheckPhaseAccess(s, user, projectRef.s, Planning, validId)
    else Throw(404, InvalidProjectId)
  }

  /** The manager gate of `getProjectById`, `updateProject` and
      `deleteProject`. The services compare the caller with the populated
      `pm`; when the manager's user record is gone, `pm` populates to null
      and a non-admin caller makes the comparison throw a TypeError. */
  function CheckProjectManager(s: Store, user: Caller, projectId: Id, invalidMessage: string,
                               validId: Id -> bool): (r: Result<Project>)
    ensures !validId(projectId) ==> r == Throw(404, invalidMessage)
    ensures validId(projectId) && projectId !in s.projects ==> r == Throw(404, ProjectNotFound)
    ensures validId(projectId) && projectId in s.projects ==>
      var p := s.projects[projectId];
      if user.admin || (user.id == p.pm && p.pm in s.users) then r == Ok(p)
      else if p.pm !in s.users then r.FailsWith(ServerError)
      else r == Throw(401, "You are not a PM!")
  {
    if !validId(projectId) then Throw(404, invalidMessage)
    else if projectId !in s.projects then Throw(404, ProjectNotFound)
    else
      var p := s.projects[projectId];
      if user.admin then Ok(p)
      else if p.pm !in s.users then Throw(ServerError, "Cannot read properties of null")
      else if user.id != p.pm then Throw(401, "You are not a PM!")
      else Ok(p)
  }

  /** For an authenticated caller (one whose record is stored) the manager
      gate passes exactly the admin and the manager: phase assignments
      grant nothing, and any other caller is refused with 401 unless the
      manager's record is gone, which is 500. */
  lemma ManagerGateIgnoresAssignments(s: Store, user: Caller, projectId: Id, msg: string,
                                      validId: Id -> bool, acs: Acs)
    requires user.id in s.users
    requires validId(projectId) && projectId in s.projects
    ensures CheckProjectManager(s, user, projectId, msg, validId).Ok? <==>
      user.admin || user.id == s.projects[projectId].pm
    ensures var s' := s.(projects := s.projects[projectId := s.projects[projectId].(acs := acs)]);
      CheckProjectManager(s', user, projectId, msg, validId).Ok? <==>
      CheckProjectManager(s, user, projectId, msg, validId).Ok?
    ensures !user.admin && user.id != s.projects[projectId].pm ==>
      CheckProjectManager(s, user, projectId, msg, validId).FailsWith(401) ||
      CheckProjectManager(s, user, projectId, msg, validId).FailsWith(ServerError)
  {
  }
}

=== FILE: authenticate.dfy ===
/** The `authenticate` middleware and its kin.

    A request is authenticated by its bearer token: the token must decode
    to the id of a stored user whose current `token` is that very token, so
    logging out (which nulls the stored token) or logging in again (which
    replaces it) revokes every earlier token. `verify` stands for
    `jwt.verify` with the access secret, `verifyRefresh` with the refresh
    secret; each yields the id in a well-signed, unexpired token. Every
    refusal is 401 "Unauthorized". An id that is not an object id makes the
    lookup throw a cast error, which the middleware hands on and the client
    sees as 500.
 */
module Authenticate {

  import opened Wrappers
  import opened Json
  import opened Text
  import opened UserModel
  import opened Db
  import UserServices

  const Unauthorized: string := "Unauthorized"

  /** `authorization?.startsWith("Bearer") && authorization.split(" ")[1]`,
      kept only when it is a non-empty string (`checkToken` refuses any
      other value). */
  function BearerToken(header: Option<string>): (t: Option<string>)
    ensures t.Some? <==>
      && header.Some? && StartsWith(header.value, "Bearer")
      && |Split(header.value, ' ')| >= 2 && Split(header.value, ' ')[1] != ""
    ensures t.Some? ==> t.value == Split(header.value, ' ')[1] && ' ' !in t.value
  {
    if header.None? || !StartsWith(header.value, "Bearer") then None
    else
      var pieces := Split(header.value, ' ');
      if |pieces| < 2 || pieces[1] == "" then None else Some(pieces[1])
  }

  /** The header a client sends, `Bearer <token>`, yields the token back;
      a header without the prefix yields nothing. */
  lemma BearerRoundTrip(t: string)
    requires t != "" && ' ' !in t
    ensures BearerToken(Some("Bearer " + t)) == Some(t)
    ensures BearerToken(Some(t)).Some? ==> StartsWith(t, "Bearer")
  {
    var h := "Bearer " + t;
    assert h == "Bearer" + [' '] + t;
    assert ' ' !in "Bearer";
    SplitAtFirst("Bearer", t, ' ');
    SplitWithout(t, ' ');
    assert Split(h, ' ') == ["Bearer", t];
    assert h[..6] == "Bearer";
  }

  /** The user a verified id names, if the session is the current one:
      the shared tail of `authenticate` and `authenticateRefresh`. */
  function CurrentSession(s: Store, token: string, id: Option<Id>, validId: Id -> bool,
                          stored: User -> Option<string>)
    : (r: Result<(Id, User)>)
    ensures r.Ok? <==>
      id.Some? && id.value != "" && validId(id.value) && id.value in s.users &&
      stored(s.users[id.value]) == Some(token)
    ensures r.Ok? ==> r.value == (id.value, s.users[id.value])
    ensures r.Err? ==> r.FailsWith(401) || (r.FailsWith(ServerError) && id.Some? && !validId(id.value))
  {
    if id.None? || id.value == "" then Throw(401, Unauthorized)
    else if !validId(id.value) then Throw(ServerError, "Cast to ObjectId failed")
    else if id.value !in s.users then Throw(401, Unauthorized)
    else if stored(s.users[id.value]) != Some(token) then Throw(401, Unauthorized)
    else Ok((id.value, s.users[id.value]))
  }

  function AccessToken(u: User): Option<string> {
    u.token
  }

  function RefreshToken(u: User): Option<string> {
    u.refreshToken
  }

  /** `authenticate`: the bearer token of the request must be the current
      access token of the user it names. */
  function Authenticate(s: Store, header: Option<string>, verify: string -> Option<Id>, validId: Id -> bool)
    : (r: Result<(Id, User)>)
    ensures r.Ok? <==>
      var t := BearerToken(header);
      && t.Some? && verify(t.value).Some?
      && var id := verify(t.value).value;
         id != "" && validId(id) && id in s.users && s.users[id].token == Some(t.value)
    ensures r.Ok? ==> r.value.0 in s.users && r.value.1 == s.users[r.value.0]
    ensures r.Err? ==> r.FailsWith(401) || r.FailsWith(ServerError)
  {
    var t := BearerToken(header);
    if t.None? then Throw(401, Unauthorized)
    else CurrentSession(s, t.value, verify(t.value), validId, AccessToken)
  }

  /** `authenticateRefresh`: the body's `refreshToken` must be the current
      refresh token of the user it names. */
  function AuthenticateRefresh(s: Store, body: Doc, verifyRefresh: string -> Option<Id>, validId: Id -> bool)
    : (r: Result<(Id, User)>)
    ensures r.Ok? <==>
      && "refreshToken" in body && body["refreshToken"].Str? && body["refreshToken"].s != ""
      && var t := body["refreshToken"].s;
         && verifyRefresh(t).Some?
         && var id := verifyRefresh(t).value;
            id != "" && validId(id) && id in s.users && s.users[id].refreshToken == Some(t)
    ensures r.Err? ==> r.FailsWith(401) || r.FailsWith(ServerError)
  {
    if !("refreshToken" in body && body["refreshToken"].Str? && body["refreshToken"].s != "") then
      Throw(401, Unauthorized)
    else
      var t := body["refreshToken"].s;
      CurrentSession(s, t, verifyRefresh(t), validId, RefreshToken)
  }

  /** `isAdmin`: passes an admin, refuses anyone else with 401 (not 403). */
  function IsAdmin(u: User): (r: Result<User>)
    ensures r.Ok? <==> u.admin
    ensures r.Ok? ==> r.value == u
    ensures r.Err? ==> r == Throw(401, Unauthorized)
  {
    if u.admin then Ok(u) else Throw(401, Unauthorized)
  }

  /** `isPM`: passes a project manager or an admin, refuses anyone else
      with 401. */
  function IsPM(u: User): (r: Result<User>)
    ensures r.Ok? <==> u.pm || u.admin
    ensures r.Ok? ==> r.value == u
    ensures r.Err? ==> r == Throw(401, Unauthorized)
  {
    if u.pm || u.admin then Ok(u) else Throw(401, Unauthorized)
  }

  /** Every admin passes the project-manager gate too. */
  lemma AdminPassesBothGates(u: User)
    ensures IsAdmin(u).Ok? ==> IsPM(u).Ok?
    ensures IsPM(u).Err? ==> IsAdmin(u).Err? && !u.pm
  {
  }

  /** After logout no token names the user any more: every request whose
      token decodes to the logged-out id is refused with 401, on the access
      and on the refresh route alike. */
  lemma LogoutRevokes(s: Store, id: Id, header: Option<string>, body: Doc,
                      verify: string -> Option<Id>, verifyRefresh: string -> Option<Id>, validId: Id -> bool)
    requires validId(id)
    requires BearerToken(header).Some? && verify(BearerToken(header).value) == Some(id)
    requires "refreshToken" in body && body["refreshToken"].Str? &&
             verifyRefresh(body["refreshToken"].s) == Some(id)
    ensures Authenticate(UserServices.Logout(s, id), header, verify, validId).FailsWith(401)
    ensures AuthenticateRefresh(UserServices.Logout(s, id), body, verifyRefresh, validId).FailsWith(401)
  {
  }

  /** After a login issues `token` to a user, the header `Bearer <token>`
      authenticates that user, given that the token decodes to the user's
      id; and a token issued earlier stops working. */
  lemma IssuedTokenAuthenticates(s: Store, id: Id, token: string, refreshToken: string, earlier: string,
                                 verify: string -> Option<Id>, validId: Id -> bool)
    requires id in s.users && id != "" && validId(id)
    requires token != "" && ' ' !in token && verify(token) == Some(id)
    requires earlier != "" && ' ' !in earlier && earlier != token && verify(earlier) == Some(id)
    ensures var s1 := UserServices.IssueTokens(s, id, token, refreshToken).0;
      && Authenticate(s1, Some("Bearer " + token), verify, validId) == Ok((id, s1.users[id]))
      && Authenticate(s1, Some("Bearer " + earlier), verify, validId).FailsWith(401)
  {
    BearerRoundTrip(token);
    BearerRoundTrip(earlier);
  }

  /** `refreshTokens` rotates the refresh token: the one just stored is
      accepted for the user and any other that decodes to the same user is
      refused with 401. */
  lemma RefreshRotates(s: Store, id: Id, token: string, refreshToken: string, earlier: string,
                       verifyRefresh: string -> Option<Id>, validId: Id -> bool)
    requires id in s.users && id != "" && validId(id)
    requires refreshToken != "" && verifyRefresh(refreshToken) == Some(id)
    requires earlier != refreshToken && verifyRefresh(earlier) == Some(id)
    ensures var r := UserServices.RegenerateTokens(s, Some(id), token, refreshToken);
      && r.Ok?
      && AuthenticateRefresh(r.value.0, map["refreshToken" := Str(refreshToken)], verifyRefresh, validId)
           == Ok((id, r.value.0.users[id]))
      && AuthenticateRefresh(r.value.0, map["refreshToken" := Str(earlier)], verifyRefresh, validId)
           .FailsWith(401)
  {
    var s1 := UserServices.RegenerateTokens(s, Some(id), token, refreshToken).value.0;
    assert s1.users[id].refreshToken == Some(refreshToken);
  }

  /** A deleted user's tokens die with the record: every access or refresh
      token that names that user is refused with 401. */
  lemma DeleteRevokes(s: Store, id: Id, current: Id, header: Option<string>, body: Doc,
                      verify: string -> Option<Id>, verifyRefresh: string -> Option<Id>, validId: Id -> bool)
    requires UserServices.DeleteUser(s, id, current, validId).Ok?
    requires BearerToken(header).Some? && verify(BearerToken(header).value) == Some(id)
    requires "refreshToken" in body && body["refreshToken"].Str? &&
             verifyRefresh(body["refreshToken"].s) == Some(id)
    ensures var s1 := UserServices.DeleteUser(s, id, current, validId).value.0;
      && id !in s1.users
      && Authenticate(s1, header, verify, validId).FailsWith(401)
      && AuthenticateRefresh(s1, body, verifyRefresh, validId).FailsWith(401)
  {
  }
}

=== FILE: childmodels.dfy ===
/** The `works` collection: one node of a work-breakdown structure. */
module WorkModel {

  import opened Wrappers
  import opened Json

  /** `work` lists child Work ids; `deliverable` is null or a Deliverable
      id; `project` is the owning Project. */
  datatype Work = Work(
    name: string,
    description: string,
    work: seq<Id>,
    deliverable: Option<Id>,
    project: Id)

  /** `Work.create(data)`: `name` and `project` are required; `description`
      defaults to "", `work` to `[]`, `deliverable` to null. */
  function WorkFromDoc(d: Doc): (r: Result<Work>)
    ensures r.Ok? <==> HasRequiredString(d, "name") && HasRequiredString(d, "project")
    ensures r.Err? ==> r.FailsWith(ServerError)
    ensures r.Ok? ==> r.value.name == d["name"].s && r.value.project == d["project"].s
    ensures r.Ok? && !Given(d, "description") ==> r.value.description == ""
    ensures r.Ok? && "description" in d && d["description"].Str? ==> r.value.description == d["description"].s
    ensures r.Ok? && !Given(d, "work") ==> r.value.work == []
    ensures r.Ok? && "work" in d && d["work"].Arr? ==> r.value.work == Strings(d["work"].items)
    ensures r.Ok? && !Given(d, "deliverable") ==> r.value.deliverable == None
    ensures r.Ok? && "deliverable" in d && d["deliverable"].Str? ==> r.value.deliverable == Some(d["deliverable"].s)
  {
    if !HasRequiredString(d, "name") || !HasRequiredString(d, "project") then
      Throw(ServerError, "works validation failed")
    else
      Ok(Work(d["name"].s, StrOr(d, "description", ""), ListOr(d, "work"),
              DeliverableRef(d, None), d["project"].s))
  }

  /** The `deliverable` path: a string sets it, `null` clears it. */
  function DeliverableRef(d: Doc, current: Option<Id>): (r: Option<Id>)
    ensures "deliverable" in d && d["deliverable"].Null? ==> r == None
    ensures "deliverable" in d && d["deliverable"].Str? ==> r == Some(d["deliverable"].s)
    ensures !("deliverable" in d && (d["deliverable"].Null? || d["deliverable"].Str?)) ==> r == current
  {
    if "deliverable" in d && d["deliverable"].Null? then None
    else if "deliverable" in d && d["deliverable"].Str? then Some(d["deliverable"].s)
    else current
  }

  /** `Work.findByIdAndUpdate(id, data)`: every path the body gives is
      set, every other field is unchanged. */
  function ApplyWorkUpdate(w: Work, d: Doc): (u: Work)
    ensures "name" in d && d["name"].Str? ==> u.name == d["name"].s
    ensures !("name" in d && d["name"].Str?) ==> u.name == w.name
    ensures "description" in d && d["description"].Str? ==> u.description == d["description"].s
    ensures !("description" in d && d["description"].Str?) ==> u.description == w.description
    ensures "work" in d && d["work"].Arr? ==> u.work == Strings(d["work"].items)
    ensures !("work" in d && d["work"].Arr?) ==> u.work == w.work
    ensures "deliverable" in d && d["deliverable"].Str? ==> u.deliverable == Some(d["deliverable"].s)
    ensures "deliverable" in d && d["deliverable"].Null? ==> u.deliverable == None
    ensures !("deliverable" in d && (d["deliverable"].Str? || d["deliverable"].Null?)) ==>
      u.deliverable == w.deliverable
    ensures "project" in d && d["project"].Str? ==> u.project == d["project"].s
    ensures !("project" in d && d["project"].Str?) ==> u.project == w.project
  {
    Work(StrOr(d, "name", w.name), StrOr(d, "description", w.description),
         if "work" in d && d["work"].Arr? then Strings(d["work"].items) else w.work,
         DeliverableRef(d, w.deliverable),
         StrOr(d, "project", w.project))
  }
}

/** The `deliverables` collection. A deliverable refers to nothing but its
    owning Project. */
module DeliverableModel {

  import opened Wrappers
  import opened Json

  datatype Deliverable = Deliverable(name: string, description: string, project: Id)

  /** `Deliverable.create(data)`: `name` and `project` are required;
      `description` defaults to "". */
  function DeliverableFromDoc(d: Doc): (r: Result<Deliverable>)
    ensures r.Ok? <==> HasRequiredString(d, "name") && HasRequiredString(d, "project")
    ensures r.Err? ==> r.FailsWith(ServerError)
    ensures r.Ok? ==> r.value.name == d["name"].s && r.value.project == d["project"].s
    ensures r.Ok? && !Given(d, "description") ==> r.value.description == ""
    ensures r.Ok? && "description" in d && d["description"].Str? ==> r.value.description == d["description"].s
  {
    if !HasRequiredString(d, "name") || !HasRequiredString(d, "project") then
      Throw(ServerError, "deliverables validation failed")
    else
      Ok(Deliverable(d["name"].s, StrOr(d, "description", ""), d["project"].s))
  }

  /** `Deliverable.findByIdAndUpdate(id, data)` */
  function ApplyDeliverableUpdate(x: Deliverable, d: Doc): (u: Deliverable)
    ensures "name" in d && d["name"].Str? ==> u.name == d["name"].s
    ensures !("name" in d && d["name"].Str?) ==> u.name == x.name
    ensures "description" in d && d["description"].Str? ==> u.description == d["description"].s
    ensures !("description" in d && d["description"].Str?) ==> u.description == x.description
    ensures "project" in d && d["project"].Str? ==> u.project == d["project"].s
    ensures !("project" in d && d["project"].Str?) ==> u.project == x.project
  {
    Deliverable(StrOr(d, "name", x.name), StrOr(d, "description", x.description),
                StrOr(d, "project", x.project))
  }
}

/** The `activities` collection: one schedule activity of a work package. */
module ActivityModel {

  import opened Wrappers
  import opened Json

  datatype Activity = Activity(
    workPackage: Id,
    name: string,
    initialScopeDescription: string,
    detailedScopeDescription: string,
    predecessorActivities: seq<Id>,
    resourceRequirements: seq<string>,
    duration: real,
    project: Id)

  /** The `duration` path, a number. */
  function DurationOr(d: Doc, default: real): (r: real)
    ensures "duration" in d && d["duration"].Num? ==> r == d["duration"].n
    ensures !("duration" in d && d["duration"].Num?) ==> r == default
  {
    if "duration" in d && d["duration"].Num? then d["duration"].n else default
  }

  /** An `[ObjectId]` path casts when the value given is not a list (read
      as absent) or every element is a string the id cast accepts. */
  predicate IdsCast(d: Doc, k: string, validId: Id -> bool) {
    !(k in d && d[k].Arr?) ||
    forall i :: 0 <= i < |d[k].items| ==> d[k].items[i].Str? && validId(d[k].items[i].s)
  }

  /** A string path after `findByIdAndUpdate`: the body's string when it
      gives one, the stored value otherwise. */
  predicate StrPathUpdated(d: Doc, k: string, before: string, after: string) {
    if k in d && d[k].Str? then after == d[k].s else after == before
  }

  /** `Activity.create(data)`: `workPackage`, `name` and `project` are
      required; both scope descriptions default to "", the two lists to
      `[]`, `duration` to 0. A predecessor that is not an object id fails
      the cast; like a missing required field, that error carries no HTTP
      status. */
  function ActivityFromDoc(d: Doc, validId: Id -> bool): (r: Result<Activity>)
    ensures r.Ok? <==>
      && HasRequiredString(d, "workPackage") && HasRequiredString(d, "name") && HasRequiredString(d, "project")
      && IdsCast(d, "predecessorActivities", validId)
    ensures r.Err? ==> r.FailsWith(ServerError)
    ensures r.Ok? ==> r.value.name == d["name"].s && r.value.project == d["project"].s
                      && r.value.workPackage == d["workPackage"].s
    ensures r.Ok? && !Given(d, "initialScopeDescription") ==> r.value.initialScopeDescription == ""
    ensures r.Ok? && !Given(d, "detailedScopeDescription") ==> r.value.detailedScopeDescription == ""
    ensures r.Ok? && !Given(d, "predecessorActivities") ==> r.value.predecessorActivities == []
    ensures r.Ok? && "predecessorActivities" in d && d["predecessorActivities"].Arr? ==>
      |r.value.predecessorActivities| == |d["predecessorActivities"].items| &&
      forall i :: 0 <= i < |d["predecessorActivities"].items| ==>
        validId(r.value.predecessorActivities[i]) &&
        Str(r.value.predecessorActivities[i]) == d["predecessorActivities"].items[i]
    ensures r.Ok? && "initialScopeDescription" in d && d["initialScopeDescription"].Str? ==>
      r.value.initialScopeDescription == d["initialScopeDescription"].s
    ensures r.Ok? && "detailedScopeDescription" in d && d["detailedScopeDescription"].Str? ==>
      r.value.detailedScopeDescription == d["detailedScopeDescription"].s
    ensures r.Ok? && !Given(d, "resourceRequirements") ==> r.value.resourceRequirements == []
    ensures r.Ok? && "resourceRequirements" in d && d["resourceRequirements"].Arr? ==>
      r.value.resourceRequirements == Strings(d["resourceRequirements"].items)
    ensures r.Ok? && !Given(d, "duration") ==> r.value.duration == 0.0
    ensures r.Ok? && "duration" in d && d["duration"].Num? ==> r.value.duration == d["duration"].n
  {
    if !HasRequiredString(d, "workPackage") || !HasRequiredString(d, "name") || !HasRequiredString(d, "project") then
      Throw(ServerError, "activities validation failed")
    else if !IdsCast(d, "predecessorActivities", validId) then
      Throw(ServerError, "Cast to [ObjectId] failed")
    else
      Ok(Activity(d["workPackage"].s, d["name"].s,
                  StrOr(d, "initialScopeDescription", ""), StrOr(d, "detailedScopeDescription", ""),
                  ListOr(d, "predecessorActivities"), ListOr(d, "resourceRequirements"),
                  DurationOr(d, 0.0), d["project"].s))
  }

  /** `Activity.findByIdAndUpdate(id, data)`: the update is cast like a
      new record, so a predecessor that is not an object id fails it. */
  function ApplyActivityUpdate(a: Activity, d: Doc, validId: Id -> bool): (r: Result<Activity>)
    ensures r.Ok? <==> IdsCast(d, "predecessorActivities", validId)
    ensures r.Err? ==> r.FailsWith(ServerError)
    ensures r.Ok? ==> StrPathUpdated(d, "workPackage", a.workPackage, r.value.workPackage)
    ensures r.Ok? ==> StrPathUpdated(d, "name", a.name, r.value.name)
    ensures r.Ok? ==> StrPathUpdated(d, "initialScopeDescription", a.initialScopeDescription,
                                     r.value.initialScopeDescription)
    ensures r.Ok? ==> StrPathUpdated(d, "detailedScopeDescription", a.detailedScopeDescription,
                                     r.value.detailedScopeDescription)
    ensures r.Ok? ==> StrPathUpdated(d, "project", a.project, r.value.project)
    ensures r.Ok? && "duration" in d && d["duration"].Num? ==> r.value.duration == d["duration"].n
    ensures r.Ok? && !("duration" in d && d["duration"].Num?) ==> r.value.duration == a.duration
    ensures r.Ok? && !("predecessorActivities" in d && d["predecessorActivities"].Arr?) ==>
      r.value.predecessorActivities == a.predecessorActivities
    ensures r.Ok? && "predecessorActivities" in d && d["predecessorActivities"].Arr? ==>
      |r.value.predecessorActivities| == |d["predecessorActivities"].items| &&
      forall i :: 0 <= i < |d["predecessorActivities"].items| ==>
        validId(r.value.predecessorActivities[i]) &&
        Str(r.value.predecessorActivities[i]) == d["predecessorActivities"].items[i]
    ensures r.Ok? && "resourceRequirements" in d && d["resourceRequirements"].Arr? ==>
      r.value.resourceRequirements == Strings(d["resourceRequirements"].items)
    ensures r.Ok? && !("resourceRequirements" in d && d["resourceRequirements"].Arr?) ==>
      r.value.resourceRequirements == a.resourceRequirements
  {
    if !IdsCast(d, "predecessorActivities", validId) then Throw(ServerError, "Cast to [ObjectId] failed")
    else
      Ok(Activity(StrOr(d, "workPackage", a.workPackage), StrOr(d, "name", a.name),
                  StrOr(d, "initialScopeDescription", a.initialScopeDescription),
                  StrOr(d, "detailedScopeDescription", a.detailedScopeDescription),
                  if "predecessorActivities" in d && d["predecessorActivities"].Arr?
                  then Strings(d["predecessorActivities"].items) else a.predecessorActivities,
                  if "resourceRequirements" in d && d["resourceRequirements"].Arr?
                  then Strings(d["resourceRequirements"].items) else a.resourceRequirements,
                  DurationOr(d, a.duration),
                  StrOr(d, "project", a.project)))
  }
}

=== FILE: childschemas.dfy ===
/** `workSchemas`: create and update bodies of the work routes. */
module WorkSchemas {

  import opened Json
  import Joi

  /** `Joi.string().optional().allow(null).custom(objectIdValidator)`:
      `null` bypasses the custom rule. */
  predicate IsNullableId(v: Value, objectIdValid: string -> bool) {
    v.Null? || Joi.IsObjectIdString(v, objectIdValid)
  }

  predicate IsIdList(v: Value, objectIdValid: string -> bool) {
    Joi.IsArrayOf(v, x => Joi.IsObjectIdString(x, objectIdValid))
  }

  /** `workSchemas.create` */
  predicate Create(d: Doc, objectIdValid: string -> bool) {
    && Joi.KeysAmong(d, {"name", "description", "project", "work", "deliverable"})
    && Joi.Required(d, "name", v => Joi.IsString(v, false))
    && Joi.Optional(d, "description", v => Joi.IsString(v, true))
    && Joi.Required(d, "project", v => Joi.IsObjectIdString(v, objectIdValid))
    && Joi.Optional(d, "work", v => IsIdList(v, objectIdValid))
    && Joi.Optional(d, "deliverable", v => IsNullableId(v, objectIdValid))
  }

  /** `workSchemas.update`: the create keys less `project`, all optional. */
  predicate Update(d: Doc, objectIdValid: string -> bool) {
    && Joi.KeysAmong(d, {"name", "description", "work", "deliverable"})
    && Joi.Optional(d, "name", v => Joi.IsString(v, false))
    && Joi.Optional(d, "description", v => Joi.IsString(v, true))
    && Joi.Optional(d, "work", v => IsIdList(v, objectIdValid))
    && Joi.Optional(d, "deliverable", v => IsNullableId(v, objectIdValid))
  }

  /** What the two schemas promise: a create body names a valid owning
      project; an update body cannot name one at all; `work`, when given,
      is a list; `deliverable` may be null; `description` may be "". */
  lemma WorkBodies(d: Doc, objectIdValid: string -> bool)
    ensures Create(d, objectIdValid) ==>
      d["project"].Str? && objectIdValid(d["project"].s) && d["name"].Str? && d["name"].s != ""
    ensures Update(d, objectIdValid) ==> "project" !in d
    ensures Create(d, objectIdValid) || Update(d, objectIdValid) ==> (Given(d, "work") ==> d["work"].Arr?)
    ensures Create(map["name" := Str("n"), "project" := Str("p"), "description" := Str(""),
                       "deliverable" := Null], x => true)
    ensures Update(map[], objectIdValid)
  {
    var e := map["name" := Str("n"), "project" := Str("p"), "description" := Str(""), "deliverable" := Null];
    assert e.Keys == {"name", "project", "description", "deliverable"};
  }
}

/** `deliverableSchemas`: create and update bodies of the deliverable
    routes. */
module DeliverableSchemas {

  import opened Json
  import Joi

  /** `deliverableSchemas.create` */
  predicate Create(d: Doc, objectIdValid: string -> bool) {
    && Joi.KeysAmong(d, {"name", "description", "project"})
    && Joi.Required(d, "name", v => Joi.IsString(v, false))
    && Joi.Optional(d, "description", v => Joi.IsString(v, true))
    && Joi.Required(d, "project", v => Joi.IsObjectIdString(v, objectIdValid))
  }

  /** `deliverableSchemas.update`: only `name` and `description`, both
      optional. */
  predicate Update(d: Doc) {
    && Joi.KeysAmong(d, {"name", "description"})
    && Joi.Optional(d, "name", v => Joi.IsString(v, false))
    && Joi.Optional(d, "description", v => Joi.IsString(v, true))
  }

  /** A create body names a valid owning project; an update body has no
      `project` key, and any sub-body of an update body is one. */
  lemma DeliverableBodies(d: Doc, k: string, objectIdValid: string -> bool)
    ensures Create(d, objectIdValid) ==> d["project"].Str? && objectIdValid(d["project"].s)
    ensures Update(d) ==> "project" !in d
    ensures Update(map[])
    ensures Update(d) ==> Update(d - {k})
  {
  }
}

/** `activitySchema`: the one schema guarding both the create and the
    update route of activities. */
module ActivitySchemas {

  import opened Json
  import Joi

  /** `activitySchema` */
  predicate ActivitySchema(d: Doc, objectIdValid: string -> bool) {
    && Joi.KeysAmong(d, {"workPackage", "name", "initialScopeDescription", "detailedScopeDescription",
                         "predecessorActivities", "resourceRequirements", "duration", "project"})
    && Joi.Optional(d, "workPackage", v => Joi.IsObjectIdString(v, objectIdValid))
    && Joi.Required(d, "name", v => Joi.IsString(v, false))
    && Joi.Optional(d, "initialScopeDescription", v => Joi.IsString(v, true))
    && Joi.Optional(d, "detailedScopeDescription", v => Joi.IsString(v, true))
    && Joi.Optional(d, "predecessorActivities", v => Joi.IsArrayOf(v, x => Joi.IsString(x, false)))
    && Joi.Optional(d, "resourceRequirements", v => Joi.IsArrayOf(v, x => Joi.IsString(x, false)))
    && Joi.Optional(d, "duration", v => Joi.IsNumberAtLeast(v, 0.0))
    && Joi.Required(d, "project", v => Joi.IsString(v, false))
  }

  /** Every accepted body, on create and on update alike, carries a name
      and a project; the project is any non-empty string, with no id check,
      and so are the predecessor ids; a given duration is at least 0. */
  lemma ActivityBodies(d: Doc, objectIdValid: string -> bool)
    requires ActivitySchema(d, objectIdValid)
    ensures d["name"].Str? && d["project"].Str? && d["project"].s != ""
    ensures Given(d, "duration") ==> d["duration"].Num? && d["duration"].n >= 0.0
    ensures Given(d, "workPackage") ==> objectIdValid(d["workPackage"].s)
    ensures ActivitySchema(map["name" := Str("n"), "project" := Str("not an id"),
                               "predecessorActivities" := Arr([Str("not an id")])], x => false)
  {
    var e := map["name" := Str("n"), "project" := Str("not an id"),
                 "predecessorActivities" := Arr([Str("not an id")])];
    assert e.Keys == {"name", "project", "predecessorActivities"};
  }
}

=== FILE: childservices.dfy ===
/** `workService`: the work-breakdown nodes of a project, all behind the
    planning-phase gate. For an update or a delete the node is looked up
    first: a missing node is 404 whoever asks, and only then is the gate
    applied to the node's own project. A malformed node id makes the lookup
    throw a cast error, which reaches the client as 500. */
module WorkServices {

  import opened Wrappers
  import opened Json
  import opened ProjectModel
  import opened WorkModel
  import opened Db
  import opened Access
  import WorkSchemas

  const WorkNotFound: string := "Work not found"

  /** `createWorkService`: the gate on the body's project, then the record. */
  function CreateWork(s: Store, user: Caller, data: Doc, newId: Id, validId: Id -> bool)
    : (r: Result<(Store, Work)>)
    requires newId !in s.works
    ensures CheckPlanningAccessOf(s, user, FieldOf(data, "project"), validId).Err? ==>
      r == CheckPlanningAccessOf(s, user, FieldOf(data, "project"), validId).PropagateFailure()
    ensures r.Ok? <==>
      && CheckPlanningAccessOf(s, user, FieldOf(data, "project"), validId).Ok?
      && HasRequiredString(data, "name") && HasRequiredString(data, "project")
    ensures r.Ok? ==>
      && data["project"].s in s.projects
      && r.value.1.project == data["project"].s
      && r.value.1.name == data["name"].s
      && r.value.0 == s.(works := s.works[newId := r.value.1])
    ensures r.Ok? ==> WorkFromDoc(data) == Ok(r.value.1)
  {
    var _ :- CheckPlanningAccessOf(s, user, FieldOf(data, "project"), validId);
    var w :- WorkFromDoc(data);
    Ok((s.(works := s.works[newId := w]), w))
  }

  /** A body the create schema accepts, from a caller the gate passes,
      always creates the node under the project it names. */
  lemma CreateAcceptedBody(s: Store, user: Caller, data: Doc, newId: Id, validId: Id -> bool,
                           objectIdValid: string -> bool)
    requires newId !in s.works
    requires WorkSchemas.Create(data, objectIdValid)
    requires CheckPhaseAccess(s, user, data["project"].s, Planning, validId).Ok?
    ensures CreateWork(s, user, data, newId, validId).Ok?
    ensures CreateWork(s, user, data, newId, validId).value.1.project == data["project"].s
  {
    WorkSchemas.WorkBodies(data, objectIdValid);
    assert objectIdValid(data["project"].s) && data["project"].s != "";
  }

  /** `getWorksByProjectService`: exactly the nodes of the project. */
  function WorksOfProject(s: Store, user: Caller, projectId: Id, validId: Id -> bool)
    : (r: Result<map<Id, Work>>)
    ensures r.Ok? <==> CheckPhaseAccess(s, user, projectId, Planning, validId).Ok?
    ensures r.Err? ==> r == CheckPhaseAccess(s, user, projectId, Planning, validId).PropagateFailure()
    ensures r.Ok? ==> forall id :: id in r.value <==> id in s.works && s.works[id].project == projectId
    ensures r.Ok? ==> forall id :: id in r.value ==> r.value[id] == s.works[id]
  {
    var _ :- CheckPhaseAccess(s, user, projectId, Planning, validId);
    Ok(map id | id in s.works && s.works[id].project == projectId :: s.works[id])
  }

  /** The normalisation of `work`: a truthy value that is not a list becomes
      the one-element list holding it; every other entry is left alone. */
  function NormalizeWorkList(d: Doc): (r: Doc)
    ensures r.Keys == d.Keys
    ensures forall k :: k in d && k != "work" ==> r[k] == d[k]
    ensures "work" in d && Truthy(d["work"]) && !d["work"].Arr? ==> r["work"] == Arr([d["work"]])
    ensures "work" in d && d["work"].Arr? ==> r["work"] == d["work"]
    ensures "work" in d && !Truthy(d["work"]) ==> r["work"] == d["work"]
  {
    if Truthy(FieldOf(d, "work")) && !d["work"].Arr? then d["work" := Arr([d["work"]])] else d
  }

  /** Normalising is idempotent and, on a body the update schema accepts,
      changes nothing: such a body's `work` is already a list. */
  lemma NormalizeIdempotent(d: Doc, objectIdValid: string -> bool)
    ensures NormalizeWorkList(NormalizeWorkList(d)) == NormalizeWorkList(d)
    ensures WorkSchemas.Update(d, objectIdValid) ==> NormalizeWorkList(d) == d
    ensures "work" in NormalizeWorkList(d) && Truthy(NormalizeWorkList(d)["work"]) ==>
      NormalizeWorkList(d)["work"].Arr?
  {
    WorkSchemas.WorkBodies(d, objectIdValid);
  }

  /** `updateWorkService`: the node's project is written back over whatever
      the body says, so a node is never moved to another project. */
  function UpdateWork(s: Store, user: Caller, id: Id, data: Doc, validId: Id -> bool)
    : (r: Result<(Store, Work)>)
    ensures !validId(id) ==> r.FailsWith(ServerError)
    ensures validId(id) && id !in s.works ==> r == Throw(404, WorkNotFound)
    ensures validId(id) && id in s.works ==>
      (r.Ok? <==> CheckPhaseAccess(s, user, s.works[id].project, Planning, validId).Ok?)
    ensures validId(id) && id in s.works && r.Err? ==>
      r == CheckPhaseAccess(s, user, s.works[id].project, Planning, validId).PropagateFailure()
    ensures r.Ok? ==>
      && id in s.works
      && r.value.1.project == s.works[id].project
      && r.value.0 == s.(works := s.works[id := r.value.1])
    ensures r.Ok? ==>
      && ("work" in data && Truthy(data["work"]) && !data["work"].Arr? ==>
            r.value.1.work == Strings([data["work"]]))
      && ("work" in data && data["work"].Arr? ==> r.value.1.work == Strings(data["work"].items))
      && ("work" !in data ==> r.value.1.work == s.works[id].work)
      && ("name" !in data ==> r.value.1.name == s.works[id].name)
      && ("name" in data && data["name"].Str? ==> r.value.1.name == data["name"].s)
    ensures r.Ok? ==>
      && ("description" in data && data["description"].Str? ==> r.value.1.description == data["description"].s)
      && (!("description" in data && data["description"].Str?) ==>
            r.value.1.description == s.works[id].description)
      && ("deliverable" in data && data["deliverable"].Str? ==>
            r.value.1.deliverable == Some(data["deliverable"].s))
      && ("deliverable" in data && data["deliverable"].Null? ==> r.value.1.deliverable == None)
      && (!("deliverable" in data && (data["deliverable"].Str? || data["deliverable"].Null?)) ==>
            r.value.1.deliverable == s.works[id].deliverable)
  {
    if !validId(id) then Throw(ServerError, "Cast to ObjectId failed")
    else if id !in s.works then Throw(404, WorkNotFound)
    else
      var w := s.works[id];
      var _ :- CheckPhaseAccess(s, user, w.project, Planning, validId);
      var d := NormalizeWorkList(data["project" := Str(w.project)]);
      var u := ApplyWorkUpdate(w, d);
      Ok((s.(works := s.works[id := u]), u))
  }

  /** `deleteWorkService`: removes the node and returns it as it was. */
  function DeleteWork(s: Store, user: Caller, id: Id, validId: Id -> bool)
    : (r: Result<(Store, Work)>)
    ensures !validId(id) ==> r.FailsWith(ServerError)
    ensures validId(id) && id !in s.works ==> r == Throw(404, WorkNotFound)
    ensures validId(id) && id in s.works ==>
      (r.Ok? <==> CheckPhaseAccess(s, user, s.works[id].project, Planning, validId).Ok?)
    ensures r.Ok? ==>
      && id in s.works
      && r.value.1 == s.works[id]
      && r.value.0 == s.(works := s.works - {id})
  {
    if !validId(id) then Throw(ServerError, "Cast to ObjectId failed")
    else if id !in s.works then Throw(404, WorkNotFound)
    else
      var w := s.works[id];
      var _ :- CheckPhaseAccess(s, user, w.project, Planning, validId);
      Ok((s.(works := s.works - {id}), w))
  }

  /** An update keeps the node under its project, so it stays in that
      project's listing and in no other. */
  lemma UpdateKeepsListing(s: Store, user: Caller, id: Id, data: Doc, projectId: Id, validId: Id -> bool)
    requires UpdateWork(s, user, id, data, validId).Ok?
    requires WorksOfProject(s, user, projectId, validId).Ok?
    ensures var s1 := UpdateWork(s, user, id, data, validId).value.0;
      WorksOfProject(s1, user, projectId, validId).Ok? &&
      (id in WorksOfProject(s1, user, projectId, validId).value <==>
       id in WorksOfProject(s, user, projectId, validId).value)
  {
    var s1 := UpdateWork(s, user, id, data, validId).value.0;
    assert s1.projects == s.projects;
  }

  /** Deleting and then listing: the project's listing afterwards is the
      listing before, less the deleted node. */
  lemma DeleteThenListWorks(s: Store, user: Caller, id: Id, validId: Id -> bool)
    requires DeleteWork(s, user, id, validId).Ok?
    ensures var s1 := DeleteWork(s, user, id, validId).value.0;
      var pid := s.works[id].project;
      && WorksOfProject(s, user, pid, validId).Ok?
      && WorksOfProject(s1, user, pid, validId).Ok?
      && id in WorksOfProject(s, user, pid, validId).value
      && WorksOfProject(s1, user, pid, validId).value == WorksOfProject(s, user, pid, validId).value - {id}
  {
    var s1 := DeleteWork(s, user, id, validId).value.0;
    var pid := s.works[id].project;
    assert s1.projects == s.projects && s1.users == s.users;
    assert CheckPhaseAccess(s1, user, pid, Planning, validId) == CheckPhaseAccess(s, user, pid, Planning, validId);
    var before := WorksOfProject(s, user, pid, validId).value;
    var after := WorksOfProject(s1, user, pid, validId).value;
    assert after.Keys == before.Keys - {id};
  }
}

/** `deliverableService`: the deliverables of a project, behind the
    planning-phase gate, with the lookup-then-gate order of the work
    service. */
module DeliverableServices {

  import opened Wrappers
  import opened Json
  import opened ProjectModel
  import opened DeliverableModel
  import opened Db
  import opened Access
  import DeliverableSchemas

  const DeliverableNotFound: string := "Deliverable not found"

  /** `createDeliverableService` */
  function CreateDeliverable(s: Store, user: Caller, data: Doc, newId: Id, validId: Id -> bool)
    : (r: Result<(Store, Deliverable)>)
    requires newId !in s.deliverables
    ensures CheckPlanningAccessOf(s, user, FieldOf(data, "project"), validId).Err? ==>
      r == CheckPlanningAccessOf(s, user, FieldOf(data, "project"), validId).PropagateFailure()
    ensures r.Ok? <==>
      && CheckPlanningAccessOf(s, user, FieldOf(data, "project"), validId).Ok?
      && HasRequiredString(data, "name") && HasRequiredString(data, "project")
    ensures r.Ok? ==>
      && data["project"].s in s.projects
      && r.value.1.project == data["project"].s
      && r.value.0 == s.(deliverables := s.deliverables[newId := r.value.1])
    ensures r.Ok? ==> DeliverableFromDoc(data) == Ok(r.value.1)
    ensures r.Ok? ==>
      && r.value.1.name == data["name"].s
      && ("description" in data && data["description"].Str? ==> r.value.1.description == data["description"].s)
      && (!Given(data, "description") ==> r.value.1.description == "")
  {
    var _ :- CheckPlanningAccessOf(s, user, FieldOf(data, "project"), validId);
    var x :- DeliverableFromDoc(data);
    Ok((s.(deliverables := s.deliverables[newId := x]), x))
  }

  /** A body the create schema accepts, from a caller the gate passes,
      always creates the deliverable it describes, under the project it
      names. */
  lemma CreateAcceptedBody(s: Store, user: Caller, data: Doc, newId: Id, validId: Id -> bool,
                           objectIdValid: string -> bool)
    requires newId !in s.deliverables
    requires DeliverableSchemas.Create(data, objectIdValid)
    requires CheckPhaseAccess(s, user, data["project"].s, Planning, validId).Ok?
    ensures var r := CreateDeliverable(s, user, data, newId, validId);
      && r.Ok?
      && r.value.1.project == data["project"].s
      && r.value.1.name == data["name"].s
      && newId in r.value.0.deliverables
  {
    DeliverableSchemas.DeliverableBodies(data, "", objectIdValid);
    assert objectIdValid(data["project"].s) && data["project"].s != "";
  }

  /** `getDeliverablesByProjectService`: exactly the project's deliverables. */
  function DeliverablesOfProject(s: Store, user: Caller, projectId: Id, validId: Id -> bool)
    : (r: Result<map<Id, Deliverable>>)
    ensures r.Ok? <==> CheckPhaseAccess(s, user, projectId, Planning, validId).Ok?
    ensures r.Err? ==> r == CheckPhaseAccess(s, user, projectId, Planning, validId).PropagateFailure()
    ensures r.Ok? ==>
      forall id :: id in r.value <==> id in s.deliverables && s.deliverables[id].project == projectId
    ensures r.Ok? ==> forall id :: id in r.value ==> r.value[id] == s.deliverables[id]
  {
    var _ :- CheckPhaseAccess(s, user, projectId, Planning, validId);
    Ok(map id | id in s.deliverables && s.deliverables[id].project == projectId :: s.deliverables[id])
  }

  /** `updateDeliverableService`: the stored project is written back. */
  function UpdateDeliverable(s: Store, user: Caller, id: Id, data: Doc, validId: Id -> bool)
    : (r: Result<(Store, Deliverable)>)
    ensures !validId(id) ==> r.FailsWith(ServerError)
    ensures validId(id) && id !in s.deliverables ==> r == Throw(404, DeliverableNotFound)
    ensures validId(id) && id in s.deliverables ==>
      (r.Ok? <==> CheckPhaseAccess(s, user, s.deliverables[id].project, Planning, validId).Ok?)
    ensures r.Ok? ==>
      && id in s.deliverables
      && r.value.1.project == s.deliverables[id].project
      && ("name" !in data ==> r.value.1.name == s.deliverables[id].name)
      && ("description" !in data ==> r.value.1.description == s.deliverables[id].description)
      && r.value.0 == s.(deliverables := s.deliverables[id := r.value.1])
    ensures r.Ok? ==>
      && ("name" in data && data["name"].Str? ==> r.value.1.name == data["name"].s)
      && (!("name" in data && data["name"].Str?) ==> r.value.1.name == s.deliverables[id].name)
      && ("description" in data && data["description"].Str? ==> r.value.1.description == data["description"].s)
      && (!("description" in data && data["description"].Str?) ==>
            r.value.1.description == s.deliverables[id].description)
  {
    if !validId(id) then Throw(ServerError, "Cast to ObjectId failed")
    else if id !in s.deliverables then Throw(404, DeliverableNotFound)
    else
      var x := s.deliverables[id];
      var _ :- CheckPhaseAccess(s, user, x.project, Planning, validId);
      var u := ApplyDeliverableUpdate(x, data["project" := Str(x.project)]);
      Ok((s.(deliverables := s.deliverables[id := u]), u))
  }

  /** `deleteDeliverableService`: removes the record and returns it as it
      was. */
  function DeleteDeliverable(s: Store, user: Caller, id: Id, validId: Id -> bool)
    : (r: Result<(Store, Deliverable)>)
    ensures !validId(id) ==> r.FailsWith(ServerError)
    ensures validId(id) && id !in s.deliverables ==> r == Throw(404, DeliverableNotFound)
    ensures validId(id) && id in s.deliverables ==>
      (r.Ok? <==> CheckPhaseAccess(s, user, s.deliverables[id].project, Planning, validId).Ok?)
    ensures r.Ok? ==>
      && id in s.deliverables
      && r.value.1 == s.deliverables[id]
      && r.value.0 == s.(deliverables := s.deliverables - {id})
  {
    if !validId(id) then Throw(ServerError, "Cast to ObjectId failed")
    else if id !in s.deliverables then Throw(404, DeliverableNotFound)
    else
      var x := s.deliverables[id];
      var _ :- CheckPhaseAccess(s, user, x.project, Planning, validId);
      Ok((s.(deliverables := s.deliverables - {id}), x))
  }

  /** Updating and then listing: the record stays in its project's listing
      and the listing shows it as updated, with the body's name when the
      body gives one. */
  lemma UpdateThenList(s: Store, user: Caller, id: Id, data: Doc, validId: Id -> bool)
    requires UpdateDeliverable(s, user, id, data, validId).Ok?
    ensures var (s1, u) := UpdateDeliverable(s, user, id, data, validId).value;
      var l := DeliverablesOfProject(s1, user, s.deliverables[id].project, validId);
      && l.Ok?
      && id in l.value && l.value[id] == u
      && ("name" in data && data["name"].Str? ==> l.value[id].name == data["name"].s)
  {
    var s1 := UpdateDeliverable(s, user, id, data, validId).value.0;
    assert s1.projects == s.projects && s1.users == s.users;
    var pid := s.deliverables[id].project;
    assert CheckPhaseAccess(s1, user, pid, Planning, validId) == CheckPhaseAccess(s, user, pid, Planning, validId);
  }

  /** Deleting and then listing: the deleted record is gone from its
      project's listing and every other record of it is still there. */
  lemma DeleteThenList(s: Store, user: Caller, id: Id, validId: Id -> bool)
    requires DeleteDeliverable(s, user, id, validId).Ok?
    ensures var s1 := DeleteDeliverable(s, user, id, validId).value.0;
      var pid := s.deliverables[id].project;
      var l := DeliverablesOfProject(s1, user, pid, validId);
      && l.Ok?
      && id !in l.value
      && forall other :: other in s.deliverables && other != id && s.deliverables[other].project == pid ==>
           other in l.value
  {
    var s1 := DeleteDeliverable(s, user, id, validId).value.0;
    assert s1.projects == s.projects;
  }
}

/** `activityService`: the schedule activities of a project, behind the
    planning-phase gate. One schema guards create and update alike. */
module ActivityServices {

  import opened Wrappers
  import opened Json
  import opened ProjectModel
  import opened ActivityModel
  import opened Db
  import opened Access
  import ActivitySchemas

  const ActivityNotFound: string := "Activity not found"

  /** `createActivityService` */
  function CreateActivity(s: Store, user: Caller, data: Doc, newId: Id, validId: Id -> bool)
    : (r: Result<(Store, Activity)>)
    requires newId !in s.activities
    ensures CheckPlanningAccessOf(s, user, FieldOf(data, "project"), validId).Err? ==>
      r == CheckPlanningAccessOf(s, user, FieldOf(data, "project"), validId).PropagateFailure()
    ensures r.Ok? <==>
      && CheckPlanningAccessOf(s, user, FieldOf(data, "project"), validId).Ok?
      && HasRequiredString(data, "workPackage") && HasRequiredString(data, "name")
      && HasRequiredString(data, "project")
      && IdsCast(data, "predecessorActivities", validId)
    ensures r.Ok? ==>
      && data["project"].s in s.projects
      && r.value.1.project == data["project"].s
      && r.value.0 == s.(activities := s.activities[newId := r.value.1])
    ensures r.Ok? ==> ActivityFromDoc(data, validId) == Ok(r.value.1)
    ensures r.Ok? ==> r.value.1.name == data["name"].s && r.value.1.workPackage == data["workPackage"].s
  {
    var _ :- CheckPlanningAccessOf(s, user, FieldOf(data, "project"), validId);
    var a :- ActivityFromDoc(data, validId);
    Ok((s.(activities := s.activities[newId := a]), a))
  }

  /** The schema leaves `workPackage` optional but the record requires it,
      and it takes any strings as predecessors where the record casts them
      to object ids: an accepted body without a work package, or with a
      predecessor that is not an id, from a caller the gate passes, fails
      with 500. With a work package and castable predecessors, the activity
      is created. */
  lemma SchemaAndRecordDisagree(s: Store, user: Caller, data: Doc, newId: Id, validId: Id -> bool,
                                objectIdValid: string -> bool)
    requires newId !in s.activities
    requires ActivitySchemas.ActivitySchema(data, objectIdValid)
    requires CheckPhaseAccess(s, user, data["project"].s, Planning, validId).Ok?
    ensures !Given(data, "workPackage") ==> CreateActivity(s, user, data, newId, validId).FailsWith(ServerError)
    ensures Given(data, "workPackage") && !IdsCast(data, "predecessorActivities", validId) ==>
      CreateActivity(s, user, data, newId, validId).FailsWith(ServerError)
    ensures Given(data, "workPackage") && data["workPackage"].s != "" &&
            IdsCast(data, "predecessorActivities", validId) ==>
      CreateActivity(s, user, data, newId, validId).Ok?
  {
    ActivitySchemas.ActivityBodies(data, objectIdValid);
  }

  /** `getActivitiesByProjectService`: exactly the project's activities. */
  function ActivitiesOfProject(s: Store, user: Caller, projectId: Id, validId: Id -> bool)
    : (r: Result<map<Id, Activity>>)
    ensures r.Ok? <==> CheckPhaseAccess(s, user, projectId, Planning, validId).Ok?
    ensures r.Err? ==> r == CheckPhaseAccess(s, user, projectId, Planning, validId).PropagateFailure()
    ensures r.Ok? ==>
      forall id :: id in r.value <==> id in s.activities && s.activities[id].project == projectId
    ensures r.Ok? ==> forall id :: id in r.value ==> r.value[id] == s.activities[id]
  {
    var _ :- CheckPhaseAccess(s, user, projectId, Planning, validId);
    Ok(map id | id in s.activities && s.activities[id].project == projectId :: s.activities[id])
  }

  /** `updateActivityService`: the stored project is written back ("Ensure
      project is not overwritten") and the updated record is returned as
      the store gives it. The cast of the update runs after the gate. */
  function UpdateActivity(s: Store, user: Caller, id: Id, data: Doc, validId: Id -> bool)
    : (r: Result<(Store, Activity)>)
    ensures !validId(id) ==> r.FailsWith(ServerError)
    ensures validId(id) && id !in s.activities ==> r == Throw(404, ActivityNotFound)
    ensures validId(id) && id in s.activities ==>
      (r.Ok? <==> CheckPhaseAccess(s, user, s.activities[id].project, Planning, validId).Ok? &&
                  IdsCast(data, "predecessorActivities", validId))
    ensures validId(id) && id in s.activities &&
            CheckPhaseAccess(s, user, s.activities[id].project, Planning, validId).Err? ==>
      r == CheckPhaseAccess(s, user, s.activities[id].project, Planning, validId).PropagateFailure()
    ensures validId(id) && id in s.activities &&
            CheckPhaseAccess(s, user, s.activities[id].project, Planning, validId).Ok? &&
            !IdsCast(data, "predecessorActivities", validId) ==>
      r.FailsWith(ServerError)
    ensures r.Ok? ==>
      && id in s.activities
      && r.value.1.project == s.activities[id].project
      && ("name" !in data ==> r.value.1.name == s.activities[id].name)
      && ("duration" !in data ==> r.value.1.duration == s.activities[id].duration)
      && ("workPackage" !in data ==> r.value.1.workPackage == s.activities[id].workPackage)
      && r.value.0 == s.(activities := s.activities[id := r.value.1])
    ensures r.Ok? ==>
      && StrPathUpdated(data, "name", s.activities[id].name, r.value.1.name)
      && StrPathUpdated(data, "workPackage", s.activities[id].workPackage, r.value.1.workPackage)
      && StrPathUpdated(data, "initialScopeDescription", s.activities[id].initialScopeDescription,
                        r.value.1.initialScopeDescription)
      && StrPathUpdated(data, "detailedScopeDescription", s.activities[id].detailedScopeDescription,
                        r.value.1.detailedScopeDescription)
      && ("duration" in data && data["duration"].Num? ==> r.value.1.duration == data["duration"].n)
      && ("resourceRequirements" in data && data["resourceRequirements"].Arr? ==>
            r.value.1.resourceRequirements == Strings(data["resourceRequirements"].items))
      && ("predecessorActivities" in data && data["predecessorActivities"].Arr? ==>
            |r.value.1.predecessorActivities| == |data["predecessorActivities"].items| &&
            forall i :: 0 <= i < |data["predecessorActivities"].items| ==>
              Str(r.value.1.predecessorActivities[i]) == data["predecessorActivities"].items[i])
  {
    if !validId(id) then Throw(ServerError, "Cast to ObjectId failed")
    else if id !in s.activities then Throw(404, ActivityNotFound)
    else
      var a := s.activities[id];
      var _ :- CheckPhaseAccess(s, user, a.project, Planning, validId);
      var pinned := data["project" := Str(a.project)];
      assert IdsCast(pinned, "predecessorActivities", validId) <==> IdsCast(data, "predecessorActivities", validId);
      var u :- ApplyActivityUpdate(a, pinned, validId);
      Ok((s.(activities := s.activities[id := u]), u))
  }

  /** `deleteActivityService`: removes the record and returns it as it was. */
  function DeleteActivity(s: Store, user: Caller, id: Id, validId: Id -> bool)
    : (r: Result<(Store, Activity)>)
    ensures !validId(id) ==> r.FailsWith(ServerError)
    ensures validId(id) && id !in s.activities ==> r == Throw(404, ActivityNotFound)
    ensures validId(id) && id in s.activities ==>
      (r.Ok? <==> CheckPhaseAccess(s, user, s.activities[id].project, Planning, validId).Ok?)
    ensures r.Ok? ==>
      && id in s.activities
      && r.value.1 == s.activities[id]
      && r.value.0 == s.(activities := s.activities - {id})
  {
    if !validId(id) then Throw(ServerError, "Cast to ObjectId failed")
    else if id !in s.activities then Throw(404, ActivityNotFound)
    else
      var a := s.activities[id];
      var _ :- CheckPhaseAccess(s, user, a.project, Planning, validId);
      Ok((s.(activities := s.activities - {id}), a))
  }

  /** Access to a project's activities does not depend on the activity: a
      caller who may list a project's activities may delete each of them,
      and update each with a castable body; one refused the listing is
      refused those too, with the same error. */
  lemma ListingDecidesWrites(s: Store, user: Caller, id: Id, data: Doc, validId: Id -> bool)
    requires validId(id) && id in s.activities
    ensures var l := ActivitiesOfProject(s, user, s.activities[id].project, validId);
      && (l.Ok? && IdsCast(data, "predecessorActivities", validId) <==>
          UpdateActivity(s, user, id, data, validId).Ok?)
      && (l.Ok? <==> DeleteActivity(s, user, id, validId).Ok?)
      && (l.Err? ==> UpdateActivity(s, user, id, data, validId).error == l.error)
  {
  }
}

=== FILE: joi.dfy ===
/** The Joi rules the request schemas are built from, as predicates on
    JSON values. Joi rejects a key the object schema does not declare, a
    string rule rejects "" unless the rule allows it, and `.trim()` makes
    the remaining string rules look at the trimmed value. Joi's conversion
    of numeric and boolean strings ("5", "true") is left out.
 */
module Joi {

  import opened Json
  import opened Text

  /** `Joi.string()`, or `Joi.string().allow("")` when `allowEmpty`. */
  predicate IsString(v: Value, allowEmpty: bool) {
    v.Str? && (allowEmpty || v.s != "")
  }

  /** `Joi.string().trim()`, optionally `.allow("")`. */
  predicate IsTrimmedString(v: Value, allowEmpty: bool) {
    v.Str? && (allowEmpty || Trim(v.s) != "")
  }

  /** `Joi.string().custom(objectIdValidator)`: a non-empty string that
      `Types.ObjectId.isValid` accepts. */
  predicate IsObjectIdString(v: Value, objectIdValid: string -> bool) {
    IsString(v, false) && objectIdValid(v.s)
  }

  /** `Joi.number().min(min)` */
  predicate IsNumberAtLeast(v: Value, min: real) {
    v.Num? && v.n >= min
  }

  /** `Joi.boolean()` */
  predicate IsBoolean(v: Value) {
    v.Bool?
  }

  /** `Joi.array().items(item)` */
  predicate IsArrayOf(v: Value, item: Value -> bool) {
    v.Arr? && forall i :: 0 <= i < |v.items| ==> item(v.items[i])
  }

  /** An object schema declares exactly these keys. */
  predicate KeysAmong(d: Doc, declared: set<string>) {
    d.Keys <= declared
  }

  /** A key without `.required()`: it may be absent. */
  predicate Optional(d: Doc, k: string, rule: Value -> bool) {
    Given(d, k) ==> rule(d[k])
  }

  /** A key with `.required()`. */
  predicate Required(d: Doc, k: string, rule: Value -> bool) {
    Given(d, k) && rule(d[k])
  }
}

=== FILE: json.dfy ===
/** JSON-like values as the request handlers see them.

    A request body, a phase section of a project and a user document turned
    into a plain object are all string-keyed objects; `Doc` is such an
    object. `Undefined` is JavaScript's `undefined`, which a parsed JSON body
    never holds but which the filtering in the user controller tests for.
    Numbers are modelled as reals; NaN and the infinities are left out.
 */
module Json {

  import opened Wrappers

  type Id = string

  datatype Value =
    | Undefined
    | Null
    | Bool(b: bool)
    | Num(n: real)
    | Str(s: string)
    | Arr(items: seq<Value>)
    | Obj(fields: map<string, Value>)

  type Doc = map<string, Value>

  /** The key is present and its value is not `undefined`. */
  predicate Given(d: Doc, k: string) {
    k in d && !d[k].Undefined?
  }

  /** `d.k`: the value under `k`, `undefined` when the key is absent. */
  function FieldOf(d: Doc, k: string): (v: Value)
    ensures k in d ==> v == d[k]
    ensures k !in d ==> v.Undefined?
  {
    if k in d then d[k] else Undefined
  }

  /** JavaScript truthiness. */
  predicate Truthy(v: Value) {
    match v
    case Undefined => false
    case Null => false
    case Bool(b) => b
    case Num(n) => n != 0.0
    case Str(s) => s != ""
    case Arr(_) => true
    case Obj(_) => true
  }

  /** `{ ...base, ...over }`: the keys of `over` win, every other key of
      `base` is kept. */
  function Spread(base: Doc, over: Doc): (r: Doc)
    ensures r.Keys == base.Keys + over.Keys
    ensures forall k :: k in over ==> r[k] == over[k]
    ensures forall k :: k in base && k !in over ==> r[k] == base[k]
  {
    base + over
  }

  /** The string a field holds, if it holds one. */
  function StrField(d: Doc, k: string): Option<string> {
    if k in d && d[k].Str? then Some(d[k].s) else None
  }

  /** The string elements of an array value, in order; the casts of the
      record models keep only these. */
  function Strings(items: seq<Value>): (r: seq<string>)
    ensures |r| <= |items|
    ensures (forall i :: 0 <= i < |items| ==> items[i].Str?) ==>
              |r| == |items| && forall i :: 0 <= i < |items| ==> r[i] == items[i].s
  {
    if |items| == 0 then []
    else (if items[0].Str? then [items[0].s] else []) + Strings(items[1..])
  }

  // ---------------------------------------------------------------------
  // How the record models read a document (Mongoose casting, narrowed to
  // values of the declared type; a value of another type is treated as
  // absent).

  /** A `required: true` string or object-id path: Mongoose rejects a
      missing value and, for strings, the empty one. */
  predicate HasRequiredString(d: Doc, k: string) {
    k in d && d[k].Str? && d[k].s != ""
  }

  /** A string path with a default. */
  function StrOr(d: Doc, k: string, default: string): (r: string)
    ensures k in d && d[k].Str? ==> r == d[k].s
    ensures !(k in d && d[k].Str?) ==> r == default
  {
    if k in d && d[k].Str? then d[k].s else default
  }

  /** An array-of-strings path (ids or tags) with the default `[]`. */
  function ListOr(d: Doc, k: string): (r: seq<Id>)
    ensures !(k in d && d[k].Arr?) ==> r == []
  {
    if k in d && d[k].Arr? then Strings(d[k].items) else []
  }
}

=== FILE: planningschemas.dfy ===
/** `planningSchemas`: the bodies of the planning-phase sections (scope,
    schedule, cost and resource management). Joi fills a missing `cost`
    and `costOfActivity` with 0 and a missing cost category with `[]`;
    `CostOf`, `CostOfActivity` and `Category` read a body the way Joi's
    validated value would hold it. */
module PlanningSchemas {

  import opened Json
  import Joi

  /** An object whose keys are among `keys`, each given as a non-empty
      string (a `Joi.object` of `Joi.string().required()` keys). */
  predicate IsStringRecord(v: Value, keys: set<string>) {
    && v.Obj?
    && v.fields.Keys <= keys
    && forall k :: k in keys ==> k in v.fields && v.fields[k].Str? && v.fields[k].s != ""
  }

  /** An object of optional string keys that allow "". */
  predicate IsOptionalStringRecord(v: Value, keys: set<string>) {
    && v.Obj?
    && v.fields.Keys <= keys
    && forall k :: k in v.fields && !v.fields[k].Undefined? ==> v.fields[k].Str?
  }

  predicate IsStringList(v: Value) {
    Joi.IsArrayOf(v, x => Joi.IsString(x, false))
  }

  /** `Joi.array().items(Joi.string().required())`: a required item type
      obliges the list to hold at least one matching item, so the empty
      list is refused. */
  predicate IsNonEmptyStringList(v: Value) {
    IsStringList(v) && |v.items| >= 1
  }

  predicate IsIdList(v: Value, objectIdValid: string -> bool) {
    Joi.IsArrayOf(v, x => Joi.IsObjectIdString(x, objectIdValid))
  }

  /** `planScopeManagement`: two optional plans of four required strings. */
  predicate PlanScopeManagement(d: Doc) {
    && Joi.KeysAmong(d, {"scopeManagementPlan", "requirementsManagementPlan"})
    && Joi.Optional(d, "scopeManagementPlan",
         v => IsStringRecord(v, {"projectScopeStatement", "WBS", "scopeBaseline", "projectDeliverables"}))
    && Joi.Optional(d, "requirementsManagementPlan",
         v => IsStringRecord(v, {"requirementActivities", "changesManagedApproved",
                                 "requirementPrioritised", "metricsUsed"}))
  }

  /** `collectRequirements`: a required list of requirement/documentation
      pairs. */
  predicate CollectRequirements(d: Doc) {
    && Joi.KeysAmong(d, {"requirements"})
    && Joi.Required(d, "requirements",
         v => Joi.IsArrayOf(v, x => IsStringRecord(x, {"requirement", "documentation"})))
  }

  /** `defineScope` */
  predicate DefineScope(d: Doc, objectIdValid: string -> bool) {
    && Joi.KeysAmong(d, {"endProductScopeDescription", "deliverables", "acceptanceCriteria", "exclusions"})
    && Joi.Required(d, "endProductScopeDescription", v => Joi.IsString(v, false))
    && Joi.Optional(d, "deliverables", v => IsIdList(v, objectIdValid))
    && Joi.Optional(d, "acceptanceCriteria", IsNonEmptyStringList)
    && Joi.Optional(d, "exclusions", IsNonEmptyStringList)
  }

  /** An accepted `defineScope` body has a non-empty end-product
      description, and gives its acceptance criteria and exclusions, when
      it gives them, as non-empty lists of non-empty strings; an empty list
      under either key is refused. */
  lemma ScopeBody(d: Doc, objectIdValid: string -> bool, k: string)
    requires k in {"acceptanceCriteria", "exclusions"}
    ensures DefineScope(d, objectIdValid) ==>
      "endProductScopeDescription" in d && d["endProductScopeDescription"].Str? &&
      d["endProductScopeDescription"].s != ""
    ensures DefineScope(d, objectIdValid) && Given(d, k) ==>
      && d[k].Arr? && |d[k].items| >= 1
      && forall i :: 0 <= i < |d[k].items| ==> d[k].items[i].Str? && d[k].items[i].s != ""
    ensures k in d && d[k] == Arr([]) ==> !DefineScope(d, objectIdValid)
  {
    if DefineScope(d, objectIdValid) && Given(d, k) {
      assert IsNonEmptyStringList(d[k]);
    }
  }

  /** `createWBS`: a required list of valid ids. */
  predicate CreateWBS(d: Doc, objectIdValid: string -> bool) {
    && Joi.KeysAmong(d, {"WBS"})
    && Joi.Required(d, "WBS", v => IsIdList(v, objectIdValid))
  }

  /** `planScheduleManagement`: a required plan of five required strings. */
  predicate PlanScheduleManagement(d: Doc) {
    && Joi.KeysAmong(d, {"scheduleManagementPlan"})
    && Joi.Required(d, "scheduleManagementPlan",
         v => IsStringRecord(v, {"changeOfSchedule", "levelOfDetail", "dependencies",
                                 "unitsOfMeasure", "requestsForChanges"}))
  }

  /** `createWBS` accepts exactly a body whose only key `WBS` holds a list
      of valid id strings. */
  lemma WBSBody(d: Doc, objectIdValid: string -> bool)
    ensures CreateWBS(d, objectIdValid) <==>
      && d.Keys <= {"WBS"} && "WBS" in d && d["WBS"].Arr?
      && forall j :: 0 <= j < |d["WBS"].items| ==>
           d["WBS"].items[j].Str? && d["WBS"].items[j].s != "" && objectIdValid(d["WBS"].items[j].s)
  {
    if "WBS" in d && d["WBS"].Arr? {
      var items := d["WBS"].items;
      assert (forall j :: 0 <= j < |items| ==> Joi.IsObjectIdString(items[j], objectIdValid)) <==>
             (forall j :: 0 <= j < |items| ==> items[j].Str? && items[j].s != "" && objectIdValid(items[j].s));
    }
  }

  /** Every item of an accepted `collectRequirements` body names both its
      requirement and its documentation, as non-empty strings. */
  lemma RequirementsBody(d: Doc, i: int)
    requires CollectRequirements(d)
    requires 0 <= i < |d["requirements"].items|
    ensures d["requirements"].items[i].Obj?
    ensures var f := d["requirements"].items[i].fields;
      && "requirement" in f && f["requirement"].Str? && f["requirement"].s != ""
      && "documentation" in f && f["documentation"].Str? && f["documentation"].s != ""
  {
    var x := d["requirements"].items[i];
    assert IsStringRecord(x, {"requirement", "documentation"});
    assert "requirement" in {"requirement", "documentation"};
    assert "documentation" in {"requirement", "documentation"};
  }

  /** An accepted `planScheduleManagement` body gives all five plan strings. */
  lemma ScheduleBody(d: Doc, k: string)
    requires PlanScheduleManagement(d)
    requires k in {"changeOfSchedule", "levelOfDetail", "dependencies", "unitsOfMeasure", "requestsForChanges"}
    ensures d["scheduleManagementPlan"].Obj?
    ensures var f := d["scheduleManagementPlan"].fields;
      k in f && f[k].Str? && f[k].s != ""
  {
    assert IsStringRecord(d["scheduleManagementPlan"],
      {"changeOfSchedule", "levelOfDetail", "dependencies", "unitsOfMeasure", "requestsForChanges"});
  }

  /** `planCostManagement`: a required plan of five optional string lists. */
  predicate PlanCostManagement(d: Doc) {
    && Joi.KeysAmong(d, {"costManagementPlan"})
    && Joi.Required(d, "costManagementPlan", (v: Value) =>
         && v.Obj?
         && Joi.KeysAmong(v.fields, {"units", "precision", "ranges", "rules", "reportingFormatsFrequency"})
         && forall k :: k in v.fields && !v.fields[k].Undefined? ==> IsStringList(v.fields[k]))
  }

  /** The seven cost categories of an estimate. */
  const CostCategories: set<string> :=
    {"labor", "materials", "equipment", "facilities", "subcontractor", "travel", "reserve"}

  /** One line of a cost category: a required name, a cost of at least 0. */
  predicate IsCostItem(v: Value) {
    && v.Obj?
    && Joi.KeysAmong(v.fields, {"name", "cost"})
    && Joi.Required(v.fields, "name", x => Joi.IsString(x, false))
    && Joi.Optional(v.fields, "cost", x => Joi.IsNumberAtLeast(x, 0.0))
  }

  /** One element of `costEstimates`. */
  predicate IsCostEstimate(v: Value, objectIdValid: string -> bool) {
    && v.Obj?
    && Joi.KeysAmong(v.fields, CostCategories + {"activity", "costOfActivity"})
    && Joi.Required(v.fields, "activity", x => Joi.IsObjectIdString(x, objectIdValid))
    && (forall k :: k in CostCategories && k in v.fields && !v.fields[k].Undefined? ==>
          Joi.IsArrayOf(v.fields[k], IsCostItem))
    && Joi.Optional(v.fields, "costOfActivity", x => Joi.IsNumberAtLeast(x, 0.0))
  }

  /** `estimateCost` */
  predicate EstimateCost(d: Doc, objectIdValid: string -> bool) {
    && Joi.KeysAmong(d, {"costEstimates"})
    && Joi.Required(d, "costEstimates", v => Joi.IsArrayOf(v, x => IsCostEstimate(x, objectIdValid)))
  }

  /** The cost of a line, 0 when the line gives none. */
  function CostOf(item: Value): real
    requires item.Obj?
  {
    if Given(item.fields, "cost") && item.fields["cost"].Num? then item.fields["cost"].n else 0.0
  }

  /** `costOfActivity` of an estimate, 0 when the estimate gives none. */
  function CostOfActivity(estimate: Value): real
    requires estimate.Obj?
  {
    if Given(estimate.fields, "costOfActivity") && estimate.fields["costOfActivity"].Num?
    then estimate.fields["costOfActivity"].n else 0.0
  }

  /** A cost category of an estimate, `[]` when the estimate omits it. */
  function Category(estimate: Value, k: string): seq<Value>
    requires estimate.Obj?
  {
    if Given(estimate.fields, k) && estimate.fields[k].Arr? then estimate.fields[k].items else []
  }

  /** In an accepted cost estimate every estimate names a valid activity,
      and every cost, given or defaulted, and every `costOfActivity` is at
      least 0. */
  lemma EstimateCostsNonNegative(d: Doc, objectIdValid: string -> bool, e: int, k: string, i: int)
    requires EstimateCost(d, objectIdValid)
    requires 0 <= e < |d["costEstimates"].items|
    ensures d["costEstimates"].items[e].Obj?
    ensures objectIdValid(d["costEstimates"].items[e].fields["activity"].s)
    ensures CostOfActivity(d["costEstimates"].items[e]) >= 0.0
    ensures k in CostCategories && 0 <= i < |Category(d["costEstimates"].items[e], k)| ==>
      Category(d["costEstimates"].items[e], k)[i].Obj? &&
      CostOf(Category(d["costEstimates"].items[e], k)[i]) >= 0.0
  {
    var est := d["costEstimates"].items[e];
    assert IsCostEstimate(est, objectIdValid);
    if k in CostCategories && 0 <= i < |Category(est, k)| {
      assert Joi.IsArrayOf(est.fields[k], IsCostItem);
      assert IsCostItem(Category(est, k)[i]);
    }
  }

  /** `determineBudget`: a cost baseline of at least 0 and a required list
      of funding periods, each with a period and a cost of at least 0. */
  predicate DetermineBudget(d: Doc) {
    && Joi.KeysAmong(d, {"costBaseline", "projectFundingRequirements"})
    && Joi.Required(d, "costBaseline", v => Joi.IsNumberAtLeast(v, 0.0))
    && Joi.Required(d, "projectFundingRequirements", v => Joi.IsArrayOf(v, IsFunding))
  }

  predicate IsFunding(v: Value) {
    && v.Obj?
    && Joi.KeysAmong(v.fields, {"period", "cost"})
    && Joi.Required(v.fields, "period", x => Joi.IsString(x, false))
    && Joi.Required(v.fields, "cost", x => Joi.IsNumberAtLeast(x, 0.0))
  }

  /** An accepted budget's baseline and every funding cost are at least 0,
      and every funding entry names its period. */
  lemma BudgetNonNegative(d: Doc, i: int)
    requires DetermineBudget(d)
    ensures d["costBaseline"].Num? && d["costBaseline"].n >= 0.0
    ensures 0 <= i < |d["projectFundingRequirements"].items| ==>
      var f := d["projectFundingRequirements"].items[i];
      f.Obj? && f.fields["period"].Str? && f.fields["cost"].Num? && f.fields["cost"].n >= 0.0
  {
    if 0 <= i < |d["projectFundingRequirements"].items| {
      assert IsFunding(d["projectFundingRequirements"].items[i]);
    }
  }

  /** `planResourceManagement`: a required plan of five optional strings
      that allow "". */
  predicate PlanResourceManagement(d: Doc) {
    && Joi.KeysAmong(d, {"resourceManagementPlan"})
    && Joi.Required(d, "resourceManagementPlan",
         v => IsOptionalStringRecord(v, {"identified", "obtained", "roles", "training", "ensured"}))
  }

  /** One element of `resourceRequireMents`. */
  predicate IsResourceRequirement(v: Value) {
    && v.Obj?
    && Joi.KeysAmong(v.fields, {"timePeriod", "resource", "expectedUse", "units"})
    && Joi.Optional(v.fields, "timePeriod", x => Joi.IsString(x, true))
    && Joi.Optional(v.fields, "resource", x => Joi.IsString(x, true))
    && Joi.Optional(v.fields, "expectedUse", x => Joi.IsNumberAtLeast(x, 0.0))
    && Joi.Optional(v.fields, "units", x => Joi.IsString(x, true))
  }

  /** `estimateActivityResource` */
  predicate EstimateActivityResource(d: Doc) {
    && Joi.KeysAmong(d, {"resourceRequireMents", "basisOfEstimates"})
    && Joi.Required(d, "resourceRequireMents",
         v => Joi.IsArrayOf(v, IsResourceRequirement))
    && Joi.Optional(d, "basisOfEstimates", v => Joi.IsString(v, true))
  }

  /** In an accepted resource estimate every given `expectedUse` is at
      least 0. */
  lemma ExpectedUseNonNegative(d: Doc, i: int)
    requires EstimateActivityResource(d)
    requires 0 <= i < |d["resourceRequireMents"].items|
    ensures d["resourceRequireMents"].items[i].Obj?
    ensures Given(d["resourceRequireMents"].items[i].fields, "expectedUse") ==>
      d["resourceRequireMents"].items[i].fields["expectedUse"].n >= 0.0
  {
    var x := d["resourceRequireMents"].items[i];
    assert IsResourceRequirement(x);
  }
}

=== FILE: projectmodel.dfy ===
/** The `projects` collection: the Project record, its five
    phase-assignment lists, its defaults, and how a create or update body
    becomes a record.

    The phase sections the project services write (the charter, the
    stakeholder register, the closure record) are not declared by the
    Mongoose schema; they are modelled as string-keyed documents on the
    record, empty on a new project.
 */
module ProjectModel {

  import opened Wrappers
  import opened Json

  /** The five lifecycle phases, each with its own assignment list. */
  datatype Phase = Initiating | Planning | Executing | Monitoring | Closing {

    /** The key of the phase under `acs`. */
    function Key(): string {
      match this
      case Initiating => "initiating"
      case Planning => "planning"
      case Executing => "executing"
      case Monitoring => "monitoring"
      case Closing => "closing"
    }
  }

  const PhaseKeys: set<string> := {"initiating", "planning", "executing", "monitoring", "closing"}

  /** `acs`: the users assigned to each phase. */
  datatype Acs = Acs(
    initiating: seq<Id>,
    planning: seq<Id>,
    executing: seq<Id>,
    monitoring: seq<Id>,
    closing: seq<Id>)
  {
    function Members(phase: Phase): seq<Id> {
      match phase
      case Initiating => initiating
      case Planning => planning
      case Executing => executing
      case Monitoring => monitoring
      case Closing => closing
    }
  }

  datatype Project = Project(
    name: string,
    pm: Id,
    startDate: string,
    acs: Acs,
    closed: bool,
    charter: Doc,        // initiating.integration.developProjectCharter
    stakeholders: Doc,   // initiating.stakeholder.identifyStakeholders
    closure: Doc)        // closing.integration.closeProject

  /** The `acs` object of a document: each list is read from its key and
      defaults to `[]`. */
  function AcsFrom(v: Value): (a: Acs)
    ensures forall phase: Phase ::
      !(v.Obj? && phase.Key() in v.fields && v.fields[phase.Key()].Arr?) ==> a.Members(phase) == []
    ensures forall phase: Phase ::
      v.Obj? && phase.Key() in v.fields && v.fields[phase.Key()].Arr? ==>
        a.Members(phase) == Strings(v.fields[phase.Key()].items)
  {
    var a := if v.Obj? then
      Acs(ListOr(v.fields, "initiating"), ListOr(v.fields, "planning"), ListOr(v.fields, "executing"),
          ListOr(v.fields, "monitoring"), ListOr(v.fields, "closing"))
    else
      Acs([], [], [], [], []);
    assert forall phase: Phase :: a.Members(phase) == (if v.Obj? then ListOr(v.fields, phase.Key()) else []);
    a
  }

  /** `Project.create(doc)`: `name` and `pm` are required; `startDate`
      defaults to the day of creation (`today`), every `acs` list to `[]`,
      `closed` to false; the phase sections start empty. A missing required
      field is a Mongoose validation error, which carries no HTTP status. */
  function ProjectFromDoc(d: Doc, today: string): (r: Result<Project>)
    ensures r.Ok? <==> HasRequiredString(d, "name") && HasRequiredString(d, "pm")
    ensures r.Err? ==> r.FailsWith(ServerError)
    ensures r.Ok? ==> r.value.name == d["name"].s && r.value.pm == d["pm"].s
    ensures r.Ok? && !Given(d, "startDate") ==> r.value.startDate == today
    ensures r.Ok? && !Given(d, "acs") ==> forall phase :: r.value.acs.Members(phase) == []
    ensures r.Ok? && !Given(d, "closed") ==> !r.value.closed
    ensures r.Ok? ==> r.value.charter == map[] && r.value.stakeholders == map[] && r.value.closure == map[]
  {
    if !HasRequiredString(d, "name") || !HasRequiredString(d, "pm") then
      Throw(ServerError, "projects validation failed")
    else
      Ok(Project(
        d["name"].s,
        d["pm"].s,
        StrOr(d, "startDate", today),
        if "acs" in d then AcsFrom(d["acs"]) else AcsFrom(Undefined),
        "closed" in d && d["closed"].Bool? && d["closed"].b,
        map[], map[], map[]))
  }

  /** `Project.findByIdAndUpdate(id, data)`: each declared top-level path
      the body gives is set (an `acs` object replaces the whole `acs`, lists
      it omits reading back as `[]`); every other field is unchanged. */
  function ApplyProjectUpdate(p: Project, d: Doc): (q: Project)
    ensures "name" in d && d["name"].Str? ==> q.name == d["name"].s
    ensures !("name" in d && d["name"].Str?) ==> q.name == p.name
    ensures "pm" in d && d["pm"].Str? ==> q.pm == d["pm"].s
    ensures !("pm" in d && d["pm"].Str?) ==> q.pm == p.pm
    ensures "startDate" in d && d["startDate"].Str? ==> q.startDate == d["startDate"].s
    ensures !("startDate" in d && d["startDate"].Str?) ==> q.startDate == p.startDate
    ensures "acs" in d && d["acs"].Obj? ==> q.acs == AcsFrom(d["acs"])
    ensures !("acs" in d && d["acs"].Obj?) ==> q.acs == p.acs
    ensures "closed" in d && d["closed"].Bool? ==> q.closed == d["closed"].b
    ensures !("closed" in d && d["closed"].Bool?) ==> q.closed == p.closed
    ensures q.charter == p.charter && q.stakeholders == p.stakeholders && q.closure == p.closure
  {
    p.(name := StrOr(d, "name", p.name),
       pm := StrOr(d, "pm", p.pm),
       startDate := StrOr(d, "startDate", p.startDate),
       acs := if "acs" in d && d["acs"].Obj? then AcsFrom(d["acs"]) else p.acs,
       closed := if "closed" in d && d["closed"].Bool? then d["closed"].b else p.closed)
  }
}

=== FILE: projectschemas.dfy ===
/** `projectSchemas`: the bodies the project create and update routes
    accept. `objectIdValid` stands for `Types.ObjectId.isValid`. */
module ProjectSchemas {

  import opened Json
  import Joi

  const BaseKeys: set<string> := {"name", "startDate", "acs", "closed"}

  /** `Joi.array().items(Joi.string().custom(objectIdValidator))` */
  predicate IsIdList(v: Value, objectIdValid: string -> bool) {
    Joi.IsArrayOf(v, x => Joi.IsObjectIdString(x, objectIdValid))
  }

  /** The `acs` object: five optional lists of valid ids. */
  predicate IsAcs(v: Value, objectIdValid: string -> bool) {
    && v.Obj?
    && Joi.KeysAmong(v.fields, {"initiating", "planning", "executing", "monitoring", "closing"})
    && Joi.Optional(v.fields, "initiating", x => IsIdList(x, objectIdValid))
    && Joi.Optional(v.fields, "planning", x => IsIdList(x, objectIdValid))
    && Joi.Optional(v.fields, "executing", x => IsIdList(x, objectIdValid))
    && Joi.Optional(v.fields, "monitoring", x => IsIdList(x, objectIdValid))
    && Joi.Optional(v.fields, "closing", x => IsIdList(x, objectIdValid))
  }

  /** `projectSchemas.create`: a name that is not blank once trimmed;
      optional start date, assignments and closed flag. */
  predicate Create(d: Doc, objectIdValid: string -> bool) {
    && Joi.KeysAmong(d, BaseKeys)
    && Joi.Required(d, "name", v => Joi.IsTrimmedString(v, false))
    && Joi.Optional(d, "startDate", v => Joi.IsString(v, false))
    && Joi.Optional(d, "acs", v => IsAcs(v, objectIdValid))
    && Joi.Optional(d, "closed", Joi.IsBoolean)
  }

  /** `projectSchemas.update`: the create schema with every key forked to
      optional. */
  predicate Update(d: Doc, objectIdValid: string -> bool) {
    && Joi.KeysAmong(d, BaseKeys)
    && Joi.Optional(d, "name", v => Joi.IsTrimmedString(v, false))
    && Joi.Optional(d, "startDate", v => Joi.IsString(v, false))
    && Joi.Optional(d, "acs", v => IsAcs(v, objectIdValid))
    && Joi.Optional(d, "closed", Joi.IsBoolean)
  }

  /** The fork only relaxes: every create body is an update body, the
      empty body is an update body, and dropping a key from an update body
      keeps it one. Neither schema declares `pm`, so no accepted body can
      name the project manager. */
  lemma UpdateRelaxesCreate(d: Doc, k: string, objectIdValid: string -> bool)
    ensures Create(d, objectIdValid) ==> Update(d, objectIdValid)
    ensures Update(map[], objectIdValid)
    ensures Update(d, objectIdValid) ==> Update(d - {k}, objectIdValid)
    ensures Create(d, objectIdValid) || Update(d, objectIdValid) ==> "pm" !in d
  {
  }

  /** Every element of every assignment list of an accepted body is a valid
      object id. */
  lemma AcsElementsAreIds(d: Doc, objectIdValid: string -> bool, k: string, i: int)
    requires Update(d, objectIdValid) && "acs" in d && d["acs"].Obj?
    requires k in d["acs"].fields && d["acs"].fields[k].Arr?
    requires 0 <= i < |d["acs"].fields[k].items|
    ensures d["acs"].fields[k].items[i].Str?
    ensures objectIdValid(d["acs"].fields[k].items[i].s)
  {
    var v := d["acs"].fields[k];
    assert IsIdList(v, objectIdValid);
  }
}

=== FILE: projectservices.dfy ===
/** `projectServices`: creating a project, the manager-gated read, update
    and delete, and the three phase-section writes (charter, stakeholder
    register, closure).

    A service returns either the new store with its output, or the error the
    client sees; a failed service writes nothing. `validId` stands for
    Mongoose's `isValidObjectId`.
 */
module ProjectServices {

  import opened Wrappers
  import opened Json
  import opened ProjectModel
  import opened Db
  import opened Access
  import ProjectSchemas
  import Text

  /** `createProject`: the caller becomes the manager unless the body names
      one (the spread puts the body last); `newId` is the id the store
      assigns and `today` the day the default start date is taken from. */
  function CreateProject(s: Store, user: Option<Caller>, data: Doc, newId: Id, today: string)
    : (r: Result<(Store, Project)>)
    requires newId !in s.projects
    ensures user.None? ==> r == Throw(401, "User not found")
    ensures user.Some? ==>
      (r.Ok? <==> HasRequiredString(data, "name") &&
                  (if "pm" in data then HasRequiredString(data, "pm") else user.value.id != ""))
    ensures r.Ok? && "pm" !in data ==> r.value.1.pm == user.value.id
    ensures r.Ok? ==> r.value.0 == s.(projects := s.projects[newId := r.value.1])
    ensures r.Ok? ==> r.value.1.name == data["name"].s
  {
    if user.None? then Throw(401, "User not found")
    else
      var p :- ProjectFromDoc(Spread(map["pm" := Str(user.value.id)], data), today);
      Ok((s.(projects := s.projects[newId := p]), p))
  }

  /** A body the create schema accepts, sent by a caller, always yields a
      project whose manager is the caller: the schema has no `pm` key and a
      non-blank name. */
  lemma CreateMakesCallerManager(s: Store, user: Caller, data: Doc, newId: Id, today: string,
                                 objectIdValid: string -> bool)
    requires newId !in s.projects && user.id != ""
    requires ProjectSchemas.Create(data, objectIdValid)
    ensures CreateProject(s, Some(user), data, newId, today).Ok?
    ensures CreateProject(s, Some(user), data, newId, today).value.1.pm == user.id
    ensures CreateProject(s, Some(user), data, newId, today).value.1.acs.Members(Planning) ==
            (if "acs" in data then AcsFrom(data["acs"]) else AcsFrom(Undefined)).planning
  {
    CreateBodyShape(data, objectIdValid);
    var d := Spread(map["pm" := Str(user.id)], data);
    assert d["pm"] == Str(user.id) && d["name"] == data["name"];
    assert "acs" in d <==> "acs" in data;
    assert "acs" in data ==> d["acs"] == data["acs"];
    var p := ProjectFromDoc(d, today);
    assert p.Ok?;
    assert CreateProject(s, Some(user), data, newId, today).value.1 == p.value;
  }

  /** What the create schema guarantees of a body: no `pm` key and a
      non-empty name. */
  lemma CreateBodyShape(data: Doc, objectIdValid: string -> bool)
    requires ProjectSchemas.Create(data, objectIdValid)
    ensures "pm" !in data && HasRequiredString(data, "name")
  {
    ProjectSchemas.UpdateRelaxesCreate(data, "", objectIdValid);
    var name := data["name"].s;
    Text.TrimProperties(name);
    assert name != "";
  }

  /** `getProjectById` */
  function GetProjectById(s: Store, user: Caller, id: Id, validId: Id -> bool): (r: Result<Project>)
    ensures !validId(id) || id !in s.projects ==> r == Throw(404, ProjectNotFound)
    ensures r.Ok? ==> id in s.projects && r.value == s.projects[id]
    ensures user.id in s.users ==>
      (r.Ok? <==> validId(id) && id in s.projects && (user.admin || user.id == s.projects[id].pm))
  {
    CheckProjectManager(s, user, id, ProjectNotFound, validId)
  }

  /** `updateProject`: the manager gate, then the update of the stored
      record; the three phase sections are untouched. */
  function UpdateProject(s: Store, user: Caller, id: Id, data: Doc, validId: Id -> bool)
    : (r: Result<(Store, Project)>)
    ensures !validId(id) || id !in s.projects ==> r == Throw(404, ProjectNotFound)
    ensures user.id in s.users ==>
      (r.Ok? <==> validId(id) && id in s.projects && (user.admin || user.id == s.projects[id].pm))
    ensures r.Ok? ==> id in s.projects && r.value.0 == s.(projects := s.projects[id := r.value.1])
    ensures r.Ok? ==> r.value.1 == ApplyProjectUpdate(s.projects[id], data)
  {
    var p :- CheckProjectManager(s, user, id, ProjectNotFound, validId);
    var q := ApplyProjectUpdate(p, data);
    Ok((s.(projects := s.projects[id := q]), q))
  }

  /** Under the update schema a manager keeps the project: no accepted
      body can replace `pm`, and the body's own sections are not written. */
  lemma UpdateKeepsManager(s: Store, user: Caller, id: Id, data: Doc, validId: Id -> bool,
                           objectIdValid: string -> bool)
    requires ProjectSchemas.Update(data, objectIdValid)
    requires UpdateProject(s, user, id, data, validId).Ok?
    ensures UpdateProject(s, user, id, data, validId).value.1.pm == s.projects[id].pm
    ensures UpdateProject(s, user, id, data, validId).value.1.charter == s.projects[id].charter
  {
    ProjectSchemas.UpdateRelaxesCreate(data, "", objectIdValid);
  }

  /** `deleteProject`: note the message of the malformed-id case. Returns
      the record as it was. */
  function DeleteProject(s: Store, user: Caller, id: Id, validId: Id -> bool)
    : (r: Result<(Store, Project)>)
    ensures !validId(id) ==> r == Throw(404, "User not found")
    ensures validId(id) && id !in s.projects ==> r == Throw(404, ProjectNotFound)
    ensures user.id in s.users ==>
      (r.Ok? <==> validId(id) && id in s.projects && (user.admin || user.id == s.projects[id].pm))
    ensures r.Ok? ==> id in s.projects && r.value.1 == s.projects[id]
    ensures r.Ok? ==> r.value.0 == s.(projects := s.projects - {id}) && id !in r.value.0.projects
  {
    var p :- CheckProjectManager(s, user, id, "User not found", validId);
    Ok((s.(projects := s.projects - {id}), p))
  }

  /** Reading, updating and deleting a project pass one gate: for the same
      caller they succeed together, and for a well-formed id they fail
      together with the same error. A malformed id is 404 for all three,
      though the delete path words it "User not found". */
  lemma ManagerVerdictsAgree(s: Store, user: Caller, id: Id, data: Doc, validId: Id -> bool)
    ensures var g := GetProjectById(s, user, id, validId);
      && (g.Ok? <==> UpdateProject(s, user, id, data, validId).Ok?)
      && (g.Ok? <==> DeleteProject(s, user, id, validId).Ok?)
      && (g.Ok? ==> UpdateProject(s, user, id, data, validId).value.1 == ApplyProjectUpdate(g.value, data))
      && (g.Ok? ==> DeleteProject(s, user, id, validId).value.1 == g.value)
      && (validId(id) && g.Err? ==>
            && UpdateProject(s, user, id, data, validId).error == g.error
            && DeleteProject(s, user, id, validId).error == g.error)
      && (!validId(id) ==>
            && g.FailsWith(404)
            && UpdateProject(s, user, id, data, validId).FailsWith(404)
            && DeleteProject(s, user, id, validId).FailsWith(404))
  {
    var g := CheckProjectManager(s, user, id, ProjectNotFound, validId);
    var d := CheckProjectManager(s, user, id, "User not found", validId);
    if validId(id) {
      assert g == d;
    }
  }

  /** The shallow merge of a phase section with a body. */
  function MergeSection(section: Doc, updates: Doc): (m: Doc)
    ensures m.Keys == section.Keys + updates.Keys
    ensures forall k :: k in updates ==> m[k] == updates[k]
    ensures forall k :: k in section && k !in updates ==> m[k] == section[k]
  {
    Spread(section, updates)
  }

  /** Merging the same body twice is merging it once. */
  lemma MergeIdempotent(section: Doc, updates: Doc)
    ensures MergeSection(MergeSection(section, updates), updates) == MergeSection(section, updates)
  {
  }

  /** `updateProjectCharter`: the initiating-phase gate, then the charter is
      merged with the body, saved, and returned. */
  function UpdateProjectCharter(s: Store, user: Caller, id: Id, updates: Doc, validId: Id -> bool)
    : (r: Result<(Store, Doc)>)
    ensures r.Ok? <==> CheckPhaseAccess(s, user, id, Initiating, validId).Ok?
    ensures r.Err? ==> r == CheckPhaseAccess(s, user, id, Initiating, validId).PropagateFailure()
    ensures r.Ok? ==>
      var p := s.projects[id];
      && r.value.1 == MergeSection(p.charter, updates)
      && r.value.0 == s.(projects := s.projects[id := p.(charter := r.value.1)])
  {
    var p :- CheckPhaseAccess(s, user, id, Initiating, validId);
    var merged := MergeSection(p.charter, updates);
    Ok((s.(projects := s.projects[id := p.(charter := merged)]), merged))
  }

  /** `updateStakeholders`: as the charter, on the stakeholder register. */
  function UpdateStakeholders(s: Store, user: Caller, id: Id, updates: Doc, validId: Id -> bool)
    : (r: Result<(Store, Doc)>)
    ensures r.Ok? <==> CheckPhaseAccess(s, user, id, Initiating, validId).Ok?
    ensures r.Err? ==> r == CheckPhaseAccess(s, user, id, Initiating, validId).PropagateFailure()
    ensures r.Ok? ==>
      var p := s.projects[id];
      && r.value.1 == MergeSection(p.stakeholders, updates)
      && r.value.0 == s.(projects := s.projects[id := p.(stakeholders := r.value.1)])
  {
    var p :- CheckPhaseAccess(s, user, id, Initiating, validId);
    var merged := MergeSection(p.stakeholders, updates);
    Ok((s.(projects := s.projects[id := p.(stakeholders := merged)]), merged))
  }

  /** Who may write the initiating sections, and what a second identical
      write does: an admin, the manager or an initiating-phase member
      succeeds; anyone else on an existing project gets 403; repeating a
      successful charter write leaves the charter as the first write left
      it. */
  lemma CharterAccessAndIdempotence(s: Store, user: Caller, id: Id, updates: Doc, validId: Id -> bool)
    requires validId(id) && id in s.projects
    ensures var p := s.projects[id];
      UpdateProjectCharter(s, user, id, updates, validId).Ok? <==>
        user.admin || user.id == p.pm || user.id in p.acs.initiating
    ensures var p := s.projects[id];
      !(user.admin || user.id == p.pm || user.id in p.acs.initiating) ==>
        UpdateProjectCharter(s, user, id, updates, validId).FailsWith(403) &&
        UpdateStakeholders(s, user, id, updates, validId).FailsWith(403)
    ensures UpdateProjectCharter(s, user, id, updates, validId).Ok? ==>
      var s1 := UpdateProjectCharter(s, user, id, updates, validId).value.0;
      UpdateProjectCharter(s1, user, id, updates, validId).Ok? &&
      UpdateProjectCharter(s1, user, id, updates, validId).value.0 == s1
  {
    if UpdateProjectCharter(s, user, id, updates, validId).Ok? {
      var p := s.projects[id];
      var s1 := UpdateProjectCharter(s, user, id, updates, validId).value.0;
      var p1 := s1.projects[id];
      assert p1 == p.(charter := MergeSection(p.charter, updates));
      MergeIdempotent(p.charter, updates);
      assert p1.(charter := MergeSection(p1.charter, updates)) == p1;
      assert s1.projects[id := p1] == s1.projects;
    }
  }

  /** `closeProject`: the closing-phase gate, then the transition on
      `closed`. A truthy `closed` closes the project and records the given
      `closedDate`, or `now` when none is given; otherwise the project is
      reopened and the recorded date cleared. Only `closedDate` of the
      closure record is written. Returns the closure record and the flag. */
  function CloseProject(s: Store, user: Caller, id: Id, updates: Doc, now: Value, validId: Id -> bool)
    : (r: Result<(Store, (Doc, bool))>)
    ensures r.Ok? <==> CheckPhaseAccess(s, user, id, Closing, validId).Ok?
    ensures r.Err? ==> r == CheckPhaseAccess(s, user, id, Closing, validId).PropagateFailure()
    ensures r.Ok? ==>
      var p := s.projects[id];
      var (closure, closed) := r.value.1;
      && closed == Truthy(FieldOf(updates, "closed"))
      && closure.Keys == p.closure.Keys + {"closedDate"}
      && (forall k :: k in p.closure && k != "closedDate" ==> closure[k] == p.closure[k])
      && closure["closedDate"] ==
           (if !closed then Null
            else if Truthy(FieldOf(updates, "closedDate")) then updates["closedDate"]
            else now)
      && r.value.0 == s.(projects := s.projects[id := p.(closed := closed, closure := closure)])
  {
    var p :- CheckPhaseAccess(s, user, id, Closing, validId);
    var closed := Truthy(FieldOf(updates, "closed"));
    var date :=
      if !closed then Null
      else if Truthy(FieldOf(updates, "closedDate")) then updates["closedDate"]
      else now;
    var closure := p.closure["closedDate" := date];
    Ok((s.(projects := s.projects[id := p.(closed := closed, closure := closure)]), (closure, closed)))
  }

  /** Closing then reopening: the project ends open with no recorded date,
      whatever the first call recorded, and every other project is as it
      was. */
  lemma CloseThenReopen(s: Store, user: Caller, id: Id, body: Doc, now: Value, validId: Id -> bool)
    requires CloseProject(s, user, id, body, now, validId).Ok?
    ensures var s1 := CloseProject(s, user, id, body, now, validId).value.0;
      var r2 := CloseProject(s1, user, id, map[], now, validId);
      && r2.Ok?
      && !r2.value.0.projects[id].closed
      && r2.value.0.projects[id].closure["closedDate"] == Null
      && (forall other :: other in s.projects && other != id ==>
            other in r2.value.0.projects && r2.value.0.projects[other] == s.projects[other])
  {
    var s1 := CloseProject(s, user, id, body, now, validId).value.0;
    var p1 := s1.projects[id];
    assert p1.pm == s.projects[id].pm && p1.acs == s.projects[id].acs;
    assert CheckPhaseAccess(s1, user, id, Closing, validId).Ok?;
  }
}

=== FILE: text.dfy ===
/** String helpers the validators and the token extraction rely on:
    JavaScript's notion of white space (shared by `\s`/`\S` in regular
    expressions and by `String.prototype.trim`), trimming, prefixes, and
    `String.prototype.split` on a one-character separator.
 */
module Text {

  /** The white-space and line-terminator characters of ECMAScript. */
  const Whitespace: set<char> := {
    '\t', '\n', '\U{000B}', '\U{000C}', '\r', ' ', '\U{00A0}', '\U{1680}',
    '\U{2000}', '\U{2001}', '\U{2002}', '\U{2003}', '\U{2004}', '\U{2005}',
    '\U{2006}', '\U{2007}', '\U{2008}', '\U{2009}', '\U{200A}', '\U{2028}',
    '\U{2029}', '\U{202F}', '\U{205F}', '\U{3000}', '\U{FEFF}'
  }

  predicate IsWhitespace(c: char) {
    c in Whitespace
  }

  predicate NoWhitespace(s: string) {
    forall i :: 0 <= i < |s| ==> !IsWhitespace(s[i])
  }

  /** `s.trimStart()` */
  function TrimStart(s: string): (r: string)
    ensures |r| <= |s| && r == s[|s| - |r|..]
    ensures r == "" || !IsWhitespace(r[0])
    ensures forall i :: 0 <= i < |s| - |r| ==> IsWhitespace(s[i])
  {
    if |s| > 0 && IsWhitespace(s[0]) then TrimStart(s[1..]) else s
  }

  /** `s.trimEnd()` */
  function TrimEnd(s: string): (r: string)
    ensures |r| <= |s| && r == s[..|r|]
    ensures r == "" || !IsWhitespace(r[|r| - 1])
    ensures forall i :: |r| <= i < |s| ==> IsWhitespace(s[i])
  {
    if |s| > 0 && IsWhitespace(s[|s| - 1]) then TrimEnd(s[..|s| - 1]) else s
  }

  /** `s.trim()`: the longest slice of `s` that neither starts nor ends
      with white space, found by dropping white space at both ends. */
  function Trim(s: string): (r: string)
  {
    TrimEnd(TrimStart(s))
  }

  /** Trimming drops only white space, and what it returns has none at
      either end; so trimming twice is trimming once. */
  lemma TrimProperties(s: string)
    ensures |Trim(s)| <= |s|
    ensures Trim(s) == "" || (!IsWhitespace(Trim(s)[0]) && !IsWhitespace(Trim(s)[|Trim(s)| - 1]))
    ensures Trim(Trim(s)) == Trim(s)
  {
    var a := TrimStart(s);
    var r := TrimEnd(a);
    assert Trim(s) == r;
    if r != "" {
      assert r == a[..|r|];
      assert r[0] == a[0];
    }
    TrimIdempotentOn(r);
  }

  lemma TrimIdempotentOn(r: string)
    requires r == "" || (!IsWhitespace(r[0]) && !IsWhitespace(r[|r| - 1]))
    ensures Trim(r) == r
  {
  }

  predicate StartsWith(s: string, prefix: string) {
    |prefix| <= |s| && s[..|prefix|] == prefix
  }

  /** `s.split(sep)` for a one-character separator: the pieces between
      consecutive separators, always at least one. */
  function Split(s: string, sep: char): (r: seq<string>)
    ensures |r| >= 1
    ensures forall i :: 0 <= i < |r| ==> sep !in r[i]
    decreases |s|
  {
    if |s| == 0 then [""]
    else
      var rest := Split(s[1..], sep);
      if s[0] == sep then [""] + rest
      else [[s[0]] + rest[0]] + rest[1..]
  }

  /** `pieces.join(sep)`: the inverse of `Split`. */
  function Join(pieces: seq<string>, sep: char): string
    requires |pieces| >= 1
    decreases |pieces|
  {
    if |pieces| == 1 then pieces[0]
    else pieces[0] + [sep] + Join(pieces[1..], sep)
  }

  /** Splitting loses nothing: joining the pieces back gives the string. */
  lemma {:induction false} SplitJoin(s: string, sep: char)
    ensures Join(Split(s, sep), sep) == s
    decreases |s|
  {
    if |s| > 0 {
      var rest := Split(s[1..], sep);
      SplitJoin(s[1..], sep);
      if s[0] == sep {
        assert Split(s, sep) == [""] + rest;
        calc {
          Join([""] + rest, sep);
          "" + [sep] + Join(rest, sep);
          [sep] + s[1..];
          s;
        }
      } else {
        var r := Split(s, sep);
        assert r == [[s[0]] + rest[0]] + rest[1..];
        if |rest| == 1 {
          assert Join(r, sep) == [s[0]] + rest[0];
          assert Join(rest, sep) == rest[0];
        } else {
          assert r[1..] == rest[1..];
          assert Join(r, sep) == [s[0]] + rest[0] + [sep] + Join(rest[1..], sep);
          assert Join(rest, sep) == rest[0] + [sep] + Join(rest[1..], sep);
        }
        assert [s[0]] + s[1..] == s;
      }
    }
  }

  /** A string without the separator is one piece. */
  lemma {:induction false} SplitWithout(t: string, sep: char)
    requires sep !in t
    ensures Split(t, sep) == [t]
    decreases |t|
  {
    if |t| > 0 {
      SplitWithout(t[1..], sep);
      assert [t[0]] + t[1..] == t;
    }
  }

  /** Everything before the first separator is the first piece; the rest
      is split on its own. */
  lemma {:induction false} SplitAtFirst(a: string, b: string, sep: char)
    requires sep !in a
    ensures Split(a + [sep] + b, sep) == [a] + Split(b, sep)
    decreases |a|
  {
    var s := a + [sep] + b;
    if |a| == 0 {
      assert s[1..] == b;
    } else {
      assert s[1..] == a[1..] + [sep] + b;
      SplitAtFirst(a[1..], b, sep);
      assert [a[0]] + a[1..] == a;
    }
  }
}

=== FILE: usercontroller.dfy ===
/** `userController`: request bodies in, responses out. Bodies of the two
    update routes are first stripped of empty entries, so an empty field in
    a form never clears a stored value; every response that carries a user
    carries the clone without its password and tokens.
 */
module UserController {

  import opened Wrappers
  import opened Json
  import opened UserModel
  import opened Db
  import opened UserServices

  datatype Response = Response(status: int, body: Doc)

  /** The values `removeEmptyProps` drops: `undefined`, `null`, `""` and the
      empty array. */
  predicate IsEmptyValue(v: Value) {
    v.Undefined? || v.Null? || v == Str("") || v == Arr([])
  }

  /** `removeEmptyProps`: the entries whose value is not empty. */
  function RemoveEmptyProps(d: Doc): (r: Doc)
    ensures r.Keys <= d.Keys
    ensures forall k :: k in d ==> (k in r <==> !IsEmptyValue(d[k]))
    ensures forall k :: k in r ==> r[k] == d[k]
  {
    map k | k in d && !IsEmptyValue(d[k]) :: d[k]
  }

  /** The reduction over the body's entries as the controller writes it,
      one entry at a time into an accumulator; it computes the filter. */
  method RemoveEmptyPropsByReduce(d: Doc) returns (acc: Doc)
    ensures acc == RemoveEmptyProps(d)
  {
    acc := map[];
    var rest := d.Keys;
    while rest != {}
      invariant rest <= d.Keys
      invariant acc.Keys <= d.Keys - rest
      invariant forall k :: k in d && k !in rest ==> (k in acc <==> !IsEmptyValue(d[k]))
      invariant forall k :: k in acc ==> acc[k] == d[k]
      decreases rest
    {
      var key :| key in rest;
      if !IsEmptyValue(d[key]) {
        acc := acc[key := d[key]];
      }
      rest := rest - {key};
    }
    assert acc.Keys == RemoveEmptyProps(d).Keys;
  }

  /** Filtering twice is filtering once; `false`, `0`, non-empty strings and
      non-empty arrays survive it. */
  lemma RemoveEmptyPropsIdempotent(d: Doc, k: string)
    ensures RemoveEmptyProps(RemoveEmptyProps(d)) == RemoveEmptyProps(d)
    ensures k in d && (d[k] == Bool(false) || d[k] == Num(0.0)) ==>
      k in RemoveEmptyProps(d) && RemoveEmptyProps(d)[k] == d[k]
    ensures k in d && d[k].Arr? && |d[k].items| > 0 ==> k in RemoveEmptyProps(d)
    ensures forall key :: key in RemoveEmptyProps(d) ==> !IsEmptyValue(RemoveEmptyProps(d)[key])
  {
    var once := RemoveEmptyProps(d);
    assert RemoveEmptyProps(once).Keys == once.Keys;
  }

  /** A response carries no secrets of the user it returns. */
  predicate HidesSecrets(resp: Response) {
    "user" in resp.body ==> resp.body["user"].Obj? && resp.body["user"].fields.Keys !! Secrets
  }

  function UserBody(id: Id, u: User): (d: Doc)
    ensures "user" in d && d["user"].Obj? && d["user"].fields.Keys !! Secrets
  {
    map["user" := Obj(SafeUser(id, u))]
  }

  /** An optional string field of the body (`undefined` unless a string). */
  function OptStr(d: Doc, k: string): (r: Option<string>)
    ensures k in d && d[k].Str? <==> r.Some?
    ensures r.Some? ==> r.value == d[k].s
  {
    if k in d && d[k].Str? then Some(d[k].s) else None
  }

  function OptBool(d: Doc, k: string): (r: Option<bool>)
    ensures k in d && d[k].Bool? <==> r.Some?
    ensures r.Some? ==> r.value == d[k].b
  {
    if k in d && d[k].Bool? then Some(d[k].b) else None
  }

  /** `add`: registers the user and answers 200 with the clone. */
  function Add(s: Store, body: Doc, hash: string -> string, newId: Id): (r: Result<(Store, Response)>)
    requires newId !in s.users
    ensures r.Ok? <==> AddUser(s, StrOr(body, "email", ""), OptStr(body, "name"), OptStr(body, "phone"),
                               StrOr(body, "password", ""), OptBool(body, "admin"), OptBool(body, "pm"),
                               hash, newId).Ok?
    ensures EmailTaken(s.users, StrOr(body, "email", "")) ==> r == Throw(409, EmailInUse)
    ensures r.Ok? ==> r.value.1.status == 200 && HidesSecrets(r.value.1)
    ensures r.Ok? ==> newId in r.value.0.users && "user" in r.value.1.body &&
                      r.value.1.body["user"] == Obj(PublicFields(newId, r.value.0.users[newId]))
  {
    var added :- AddUser(s, StrOr(body, "email", ""), OptStr(body, "name"), OptStr(body, "phone"),
                         StrOr(body, "password", ""), OptBool(body, "admin"), OptBool(body, "pm"),
                         hash, newId);
    Ok((added.0, Response(200, UserBody(newId, added.1))))
  }

  /** The login response body: the clone next to both tokens. */
  function TokensBody(id: Id, u: User, token: string, refreshToken: string): (d: Doc)
    ensures "user" in d && d["user"].Obj? && d["user"].fields.Keys !! Secrets
    ensures "token" in d && d["token"] == Str(token)
    ensures "refreshToken" in d && d["refreshToken"] == Str(refreshToken)
  {
    var user := UserBody(id, u);
    assert "user" != "token" && "user" != "refreshToken";
    user["token" := Str(token)]["refreshToken" := Str(refreshToken)]
  }

  /** `login`: the clone and both new tokens. */
  ghost function LoginResponse(s: Store, body: Doc, compare: (string, string) -> bool,
                               token: string, refreshToken: string)
    : (r: Result<(Store, Response)>)
    ensures r.Err? ==> r == Throw(401, WrongCredentials)
    ensures r.Ok? ==> r.value.1.status == 200 && HidesSecrets(r.value.1)
    ensures r.Ok? ==> "token" in r.value.1.body && r.value.1.body["token"] == Str(token)
    ensures r.Ok? ==> "refreshToken" in r.value.1.body && r.value.1.body["refreshToken"] == Str(refreshToken)
  {
    var logged :- Login(s, StrOr(body, "email", ""), StrOr(body, "password", ""), compare, token, refreshToken);
    var (s1, id, u) := logged;
    Ok((s1, Response(200, TokensBody(id, u, token, refreshToken))))
  }

  /** `logout`: 204 with no body. */
  function LogoutResponse(s: Store, current: Id): (r: (Store, Response))
    ensures r.0 == Logout(s, current)
    ensures r.1 == Response(204, map[])
  {
    (Logout(s, current), Response(204, map[]))
  }

  /** `current`: the authenticated user's clone. */
  function Current(id: Id, u: User): (r: Response)
    ensures r.status == 200 && HidesSecrets(r)
    ensures r.body == map["user" := Obj(PublicFields(id, u))]
  {
    Response(200, UserBody(id, u))
  }

  /** `refreshTokens`: the two new tokens of the authenticated user (the
      service's own missing-user check cannot fire behind the middleware);
      a user gone meanwhile makes the destructuring of `null` throw. */
  function RefreshTokens(s: Store, current: Id, token: string, refreshToken: string)
    : (r: Result<(Store, Response)>)
    ensures r.Ok? <==> current in s.users
    ensures r.Ok? ==>
      && current in r.value.0.users
      && r.value.0.users[current].token == Some(token)
      && r.value.0.users[current].refreshToken == Some(refreshToken)
      && r.value.1 == Response(200, map["token" := Str(token), "refreshToken" := Str(refreshToken)])
  {
    var issued := IssueTokens(s, current, token, refreshToken);
    if issued.1.None? then Throw(ServerError, "Cannot destructure null")
    else Ok((issued.0, Response(200, map["token" := Str(token), "refreshToken" := Str(refreshToken)])))
  }

  /** `all`: every user, as clones, in the order the store lists them. */
  function All(users: seq<(Id, User)>): (r: Response)
    ensures r.status == 200 && "users" in r.body && r.body["users"].Arr?
    ensures |r.body["users"].items| == |users|
    ensures forall i :: 0 <= i < |users| ==>
      r.body["users"].items[i] == Obj(PublicFields(users[i].0, users[i].1))
    ensures forall i :: 0 <= i < |users| ==> r.body["users"].items[i].fields.Keys !! Secrets
  {
    Response(200, map["users" := Arr(seq(|users|, i requires 0 <= i < |users| => Obj(SafeUser(users[i].0, users[i].1))))])
  }

  /** `deleteUser`: the deleted user's clone and a message. */
  function DeleteUserResponse(s: Store, id: Id, current: Id, validId: Id -> bool)
    : (r: Result<(Store, Response)>)
    ensures r.Ok? <==> DeleteUser(s, id, current, validId).Ok?
    ensures r.Err? ==> r.error == DeleteUser(s, id, current, validId).error
    ensures r.Ok? ==> r.value.0 == s.(users := s.users - {id}) && r.value.1.status == 200 && HidesSecrets(r.value.1)
    ensures r.Ok? ==> "message" in r.value.1.body && r.value.1.body["message"] == Str("User was deleted")
  {
    var deleted :- DeleteUser(s, id, current, validId);
    Ok((deleted.0, Response(200, UserBody(id, deleted.1)["message" := Str("User was deleted")])))
  }

  /** The body `updateUser` hands to the service: the filtered request
      body, with the uploaded avatar's URL over any the body gives. */
  function UpdateBody(body: Doc, avatar: Option<string>): (d: Doc)
    ensures avatar.Some? ==> "avatarURL" in d && d["avatarURL"] == Str(avatar.value)
    ensures forall k :: k in d && (k != "avatarURL" || avatar.None?) ==>
      k in body && d[k] == body[k] && !IsEmptyValue(body[k])
    ensures forall k :: k in body && !IsEmptyValue(body[k]) ==> k in d
  {
    var clear := RemoveEmptyProps(body);
    if avatar.Some? then Spread(clear, map["avatarURL" := Str(avatar.value)]) else clear
  }

  /** Every field the body sends empty (undefined, null, "" or `[]`)
      keeps its stored value. */
  predicate EmptyFieldsKept(before: User, after: User, body: Doc) {
    && ("email" in body && IsEmptyValue(body["email"]) ==> after.email == before.email)
    && ("password" in body && IsEmptyValue(body["password"]) ==> after.password == before.password)
    && ("name" in body && IsEmptyValue(body["name"]) ==> after.name == before.name)
    && ("phone" in body && IsEmptyValue(body["phone"]) ==> after.phone == before.phone)
    && ("avatarURL" in body && IsEmptyValue(body["avatarURL"]) ==> after.avatarURL == before.avatarURL)
    && ("admin" in body && IsEmptyValue(body["admin"]) ==> after.admin == before.admin)
    && ("pm" in body && IsEmptyValue(body["pm"]) ==> after.pm == before.pm)
    && ("token" in body && IsEmptyValue(body["token"]) ==> after.token == before.token)
    && ("refreshToken" in body && IsEmptyValue(body["refreshToken"]) ==>
          after.refreshToken == before.refreshToken)
  }

  /** Keys the body sends empty and the patch leaves out keep their values. */
  lemma AbsentFieldsKept(u: User, d: Doc, body: Doc)
    requires forall k :: k in body && IsEmptyValue(body[k]) ==> k !in d
    ensures EmptyFieldsKept(u, ApplyUserUpdate(u, d), body)
  {
  }

  /** `updateUser`: the caller's own record is patched with the update
      body; an empty field leaves the stored value alone. A null result
      (the caller's record gone) makes the clone throw. */
  function UpdateUserRequest(s: Store, current: Id, body: Doc, avatar: Option<string>, hash: string -> string)
    : (r: Result<(Store, Response)>)
    ensures r.Ok? ==> current in s.users && current in r.value.0.users
    ensures r.Ok? ==> r.value.1.status == 200 && HidesSecrets(r.value.1)
    ensures r.Ok? && avatar.Some? ==> r.value.0.users[current].avatarURL == avatar
    ensures r.Ok? && "name" in body && IsEmptyValue(body["name"]) ==>
      r.value.0.users[current].name == s.users[current].name
    ensures r.Ok? && "password" in body && IsEmptyValue(body["password"]) ==>
      r.value.0.users[current].password == s.users[current].password
    ensures r.Ok? ==> EmptyFieldsKept(s.users[current], r.value.0.users[current],
                                      if avatar.Some? then body - {"avatarURL"} else body)
    ensures r.Ok? ==> forall other :: other in s.users && other != current ==>
      other in r.value.0.users && r.value.0.users[other] == s.users[other]
  {
    var d := UpdateBody(body, avatar);
    var updated :- UpdateUser(s, Some(current), d, hash);
    if updated.1.None? then Throw(ServerError, "Cannot read properties of null")
    else
      AbsentFieldsKept(s.users[current], HashPassword(d, hash), if avatar.Some? then body - {"avatarURL"} else body);
      Ok((updated.0, Response(200, UserBody(current, updated.1.value))))
  }

  /** `editUser`: the filtered body patches another user's record. */
  function EditUserRequest(s: Store, id: Id, current: Id, body: Doc, validId: Id -> bool, hash: string -> string)
    : (r: Result<(Store, Response)>)
    ensures !validId(id) ==> r == Throw(404, UserNotFound)
    ensures validId(id) && id == current ==> r == Throw(409, "Can't edit current user!")
    ensures r.Ok? ==> id in s.users && id != current && r.value.1.status == 200 && HidesSecrets(r.value.1)
    ensures r.Ok? && "name" in body && IsEmptyValue(body["name"]) ==>
      id in r.value.0.users && r.value.0.users[id].name == s.users[id].name
    ensures r.Ok? ==> id in r.value.0.users && EmptyFieldsKept(s.users[id], r.value.0.users[id], body)
    ensures r.Ok? && current in s.users ==>
      current in r.value.0.users && r.value.0.users[current] == s.users[current]
  {
    var edited :- EditUser(s, id, RemoveEmptyProps(body), current, validId, hash);
    if edited.1.None? then Throw(ServerError, "Cannot read properties of null")
    else Ok((edited.0, Response(200, UserBody(id, edited.1.value))))
  }

  /** `updateUser` over the update service as written: a new password in
      the body fails with 500 before anything is stored, so a success never
      changes the caller's password. */
  function UpdateUserRequestAsWritten(s: Store, current: Id, body: Doc, avatar: Option<string>)
    : (r: Result<(Store, Response)>)
    ensures "password" in body && body["password"].Str? && body["password"].s != "" ==>
      r.FailsWith(ServerError)
    ensures r.Ok? ==> current in s.users && current in r.value.0.users
    ensures r.Ok? ==> r.value.1.status == 200 && HidesSecrets(r.value.1)
    ensures r.Ok? ==> r.value.0.users[current].password == s.users[current].password
    ensures r.Ok? && avatar.Some? ==> r.value.0.users[current].avatarURL == avatar
    ensures r.Ok? ==> forall other :: other in s.users && other != current ==>
      other in r.value.0.users && r.value.0.users[other] == s.users[other]
  {
    var d := UpdateBody(body, avatar);
    var updated :- UpdateUserAsWritten(s, Some(current), d);
    if updated.1.None? then Throw(ServerError, "Cannot read properties of null")
    else Ok((updated.0, Response(200, UserBody(current, updated.1.value))))
  }

  /** Without a new password the update request as written and as
      corrected are the same request. */
  lemma UpdateRequestTwinsAgree(s: Store, current: Id, body: Doc, avatar: Option<string>, hash: string -> string)
    requires !Truthy(FieldOf(UpdateBody(body, avatar), "password"))
    ensures UpdateUserRequestAsWritten(s, current, body, avatar) == UpdateUserRequest(s, current, body, avatar, hash)
  {
  }

  /** `editUser` over the edit service as written: the malformed id, the
      self-edit and a new password all come back as 501, and a success
      never changes a password or the editor's own record. */
  function EditUserRequestAsWritten(s: Store, id: Id, current: Id, body: Doc, validId: Id -> bool)
    : (r: Result<(Store, Response)>)
    ensures !validId(id) ==> r.FailsWith(501)
    ensures validId(id) && id == current ==> r.FailsWith(501)
    ensures "password" in body && body["password"].Str? && body["password"].s != "" ==> r.FailsWith(501)
    ensures r.Err? ==> r.FailsWith(501) || r.FailsWith(ServerError)
    ensures r.Ok? ==> id in s.users && id != current && r.value.1.status == 200 && HidesSecrets(r.value.1)
    ensures r.Ok? ==> id in r.value.0.users && r.value.0.users[id].password == s.users[id].password
    ensures r.Ok? && current in s.users ==>
      current in r.value.0.users && r.value.0.users[current] == s.users[current]
  {
    var edited :- UserServices.EditUserAsWritten(s, id, RemoveEmptyProps(body), current, validId);
    if edited.1.None? then Throw(ServerError, "Cannot read properties of null")
    else Ok((edited.0, Response(200, UserBody(id, edited.1.value))))
  }

  /** Every edit the as-written request lets through is the corrected
      request's edit. */
  lemma EditRequestTwinsAgree(s: Store, id: Id, current: Id, body: Doc, validId: Id -> bool, hash: string -> string)
    ensures EditUserRequestAsWritten(s, id, current, body, validId).Ok? ==>
            EditUserRequestAsWritten(s, id, current, body, validId) ==
            EditUserRequest(s, id, current, body, validId, hash)
  {
  }

  /** The update route's schema accepts `admin`, so any authenticated user
      can make themself an admin through their own update. */
  lemma SelfPromotion(s: Store, current: Id, hash: string -> string)
    requires current in s.users
    ensures UpdateUserSchema(map["admin" := Bool(true)])
    ensures var r := UpdateUserRequest(s, current, map["admin" := Bool(true)], None, hash);
      r.Ok? && r.value.0.users[current].admin
  {
    var body := map["admin" := Bool(true)];
    assert RemoveEmptyProps(body) == body;
    assert UpdateBody(body, None) == body;
    assert !Truthy(FieldOf(body, "password"));
    assert !EmailClash(s.users, current, body);
    var u := ApplyUserUpdate(s.users[current], body);
    assert u.admin;
    assert UpdateUser(s, Some(current), body, hash) == Ok((s.(users := s.users[current := u]), Some(u)));
  }
}

=== FILE: usermodel.dfy ===
/** The `users` collection: the User record with its defaults, the e-mail
    pattern, and the request schemas the user routes validate bodies
    against (`Schemas` of models/userModel.js).
 */
module UserModel {

  import opened Wrappers
  import opened Json
  import opened Text
  import Joi

  /** A stored user. `password` holds a bcrypt hash; `token` and
      `refreshToken` are the single active session, null when logged out. */
  datatype User = User(
    email: string,
    password: string,
    name: Option<string>,
    phone: Option<string>,
    avatarURL: Option<string>,
    admin: bool,
    pm: bool,
    token: Option<string>,
    refreshToken: Option<string>)

  /** The unique index on `email`: no two stored users share one. */
  predicate EmailsUnique(users: map<Id, User>) {
    forall a, b :: a in users && b in users && users[a].email == users[b].email ==> a == b
  }

  /** The pattern `^\S+@\S+\.\S+$`, read as the regular expression it is:
      three non-empty runs of non-white-space characters separated by an
      `@` and a `.`. */
  predicate EmailRegexp(s: string) {
    exists i, j ::
      0 < i && i + 1 < j && j + 1 < |s| &&
      NoWhitespace(s[..i]) && s[i] == '@' &&
      NoWhitespace(s[i + 1..j]) && s[j] == '.' &&
      NoWhitespace(s[j + 1..])
  }

  /** Since `@` and `.` are not white space, the pattern holds iff the
      whole string has no white space and has an `@` after its first
      character followed, at least two places later, by a `.` before its
      last character. */
  lemma EmailRegexpByIndex(s: string)
    ensures EmailRegexp(s) <==>
      NoWhitespace(s) &&
      exists i, j :: 0 < i && i + 1 < j && j + 1 < |s| && s[i] == '@' && s[j] == '.'
  {
    if EmailRegexp(s) {
      var i, j :| 0 < i && i + 1 < j && j + 1 < |s| &&
        NoWhitespace(s[..i]) && s[i] == '@' &&
        NoWhitespace(s[i + 1..j]) && s[j] == '.' &&
        NoWhitespace(s[j + 1..]);
      forall k | 0 <= k < |s|
        ensures !IsWhitespace(s[k])
      {
        if k < i {
          assert s[k] == s[..i][k];
        } else if i < k < j {
          assert s[k] == s[i + 1..j][k - i - 1];
        } else if j < k {
          assert s[k] == s[j + 1..][k - j - 1];
        }
      }
    }
    if NoWhitespace(s) && exists i, j :: 0 < i && i + 1 < j && j + 1 < |s| && s[i] == '@' && s[j] == '.' {
      var i, j :| 0 < i && i + 1 < j && j + 1 < |s| && s[i] == '@' && s[j] == '.';
      assert NoWhitespace(s[..i]) && NoWhitespace(s[i + 1..j]) && NoWhitespace(s[j + 1..]);
    }
  }

  /** A single left-to-right scan deciding the e-mail pattern: it looks for
      white space, the first `@` after position 0, and the last `.` before
      the final character. */
  method MatchEmailRegexp(s: string) returns (ok: bool)
    ensures ok <==> EmailRegexp(s)
  {
    var blank := false;
    var at := -1;
    var dot := -1;
    var n := 0;
    while n < |s|
      invariant 0 <= n <= |s|
      invariant blank <==> exists k :: 0 <= k < n && IsWhitespace(s[k])
      invariant at == -1 ==> forall k :: 1 <= k < n ==> s[k] != '@'
      invariant at != -1 ==> 1 <= at < n && s[at] == '@' && forall k :: 1 <= k < at ==> s[k] != '@'
      invariant dot == -1 ==> forall k :: 0 <= k < n && k + 1 < |s| ==> s[k] != '.'
      invariant dot != -1 ==>
        0 <= dot < n && dot + 1 < |s| && s[dot] == '.' &&
        forall k :: dot < k < n && k + 1 < |s| ==> s[k] != '.'
    {
      if IsWhitespace(s[n]) {
        blank := true;
      }
      if s[n] == '@' && n >= 1 && at == -1 {
        at := n;
      }
      if s[n] == '.' && n + 1 < |s| {
        dot := n;
      }
      n := n + 1;
    }
    ok := !blank && at != -1 && dot > at + 1;
    EmailRegexpByIndex(s);
    if ok {
      assert 0 < at && at + 1 < dot && dot + 1 < |s| && s[at] == '@' && s[dot] == '.';
    }
    if NoWhitespace(s) && exists i, j :: 0 < i && i + 1 < j && j + 1 < |s| && s[i] == '@' && s[j] == '.' {
      var i, j :| 0 < i && i + 1 < j && j + 1 < |s| && s[i] == '@' && s[j] == '.';
      assert at != -1 && at <= i;
      assert dot != -1 && j <= dot;
    }
  }

  /** `User.create({ email, name, phone, password, admin, pm })`: the
      fields the request left undefined take the schema's defaults (`admin`
      and `pm` false, both tokens null, no avatar). */
  function NewUser(email: string, name: Option<string>, phone: Option<string>,
                   passwordHash: string, admin: Option<bool>, pm: Option<bool>): (u: User)
    ensures u.email == email && u.password == passwordHash
    ensures u.name == name && u.phone == phone && u.avatarURL == None
    ensures u.admin <==> admin == Some(true)
    ensures u.pm <==> pm == Some(true)
    ensures u.token == None && u.refreshToken == None
  {
    User(email, passwordHash, name, phone, None,
         if admin.Some? then admin.value else false,
         if pm.Some? then pm.value else false,
         None, None)
  }

  /** The `required` validators of `email` and `password`: a Mongoose
      required string rejects the empty string. */
  predicate HasRequiredFields(u: User) {
    u.email != "" && u.password != ""
  }

  /** A user document as `user.toObject()` lays it out: absent optional
      strings are absent keys, null tokens are `null`. */
  function ToObject(id: Id, u: User): (d: Doc)
    ensures d.Keys == PublicFields(id, u).Keys + Secrets
    ensures d["password"] == Str(u.password) && d["email"] == Str(u.email)
    ensures d["token"] == Nullable(u.token) && d["refreshToken"] == Nullable(u.refreshToken)
    ensures forall k :: k in PublicFields(id, u) ==> d[k] == PublicFields(id, u)[k]
  {
    var p := PublicFields(id, u);
    var d := p + map["password" := Str(u.password), "token" := Nullable(u.token),
                     "refreshToken" := Nullable(u.refreshToken)];
    forall k | k in p
      ensures d[k] == p[k]
    {
      assert k !in Secrets;
    }
    d
  }

  /** The keys of a user document that no response may carry. */
  const Secrets: set<string> := {"password", "token", "refreshToken"}

  /** The fields of a user document other than the password and the two
      tokens. */
  function PublicFields(id: Id, u: User): (d: Doc)
    ensures "_id" in d && "email" in d && "admin" in d && "pm" in d
    ensures d["_id"] == Str(id) && d["email"] == Str(u.email)
    ensures d["admin"] == Bool(u.admin) && d["pm"] == Bool(u.pm)
    ensures d.Keys !! Secrets
  {
    var base := map["_id" := Str(id), "email" := Str(u.email), "admin" := Bool(u.admin), "pm" := Bool(u.pm)];
    var extra := OptionalKey("name", u.name) + OptionalKey("phone", u.phone) + OptionalKey("avatarURL", u.avatarURL);
    assert extra.Keys <= {"name", "phone", "avatarURL"};
    assert base.Keys == {"_id", "email", "admin", "pm"};
    assert {"name", "phone", "avatarURL"} !! Secrets && {"_id", "email", "admin", "pm"} !! Secrets;
    extra + base
  }

  function Nullable(o: Option<string>): Value {
    if o.Some? then Str(o.value) else Null
  }

  function OptionalKey(k: string, o: Option<string>): (d: Doc)
    ensures d.Keys <= {k}
  {
    if o.Some? then map[k := Str(o.value)] else map[]
  }

  // ---------------------------------------------------------------------
  // Request schemas of the user routes.

  /** `Joi.string().pattern(emailRegexp)` */
  predicate IsEmailString(v: Value) {
    Joi.IsString(v, false) && EmailRegexp(v.s)
  }

  /** `Joi.string().min(4).max(22)`; lengths count characters. */
  predicate IsPasswordString(v: Value) {
    Joi.IsString(v, false) && 4 <= |v.s| <= 22
  }

  /** `addSchema`: e-mail and password required, name and phone optional
      strings, the two role flags optional booleans. */
  predicate AddSchema(d: Doc) {
    && Joi.KeysAmong(d, {"email", "password", "name", "phone", "admin", "pm"})
    && Joi.Required(d, "email", IsEmailString)
    && Joi.Required(d, "password", IsPasswordString)
    && Joi.Optional(d, "name", v => Joi.IsString(v, false))
    && Joi.Optional(d, "phone", v => Joi.IsString(v, false))
    && Joi.Optional(d, "admin", Joi.IsBoolean)
    && Joi.Optional(d, "pm", Joi.IsBoolean)
  }

  /** `loginSchema`: exactly e-mail and password, under the same rules. */
  predicate LoginSchema(d: Doc) {
    && Joi.KeysAmong(d, {"email", "password"})
    && Joi.Required(d, "email", IsEmailString)
    && Joi.Required(d, "password", IsPasswordString)
  }

  /** `refreshSchema` */
  predicate RefreshSchema(d: Doc) {
    && Joi.KeysAmong(d, {"refreshToken"})
    && Joi.Required(d, "refreshToken", v => Joi.IsString(v, false))
  }

  /** `updateUserSchema`: every key optional. */
  predicate UpdateUserSchema(d: Doc) {
    && Joi.KeysAmong(d, {"name", "email", "password", "avatarURL", "phone", "admin", "pm"})
    && Joi.Optional(d, "name", v => Joi.IsString(v, false))
    && Joi.Optional(d, "email", IsEmailString)
    && Joi.Optional(d, "password", IsPasswordString)
    && Joi.Optional(d, "avatarURL", v => Joi.IsString(v, false))
    && Joi.Optional(d, "phone", v => Joi.IsString(v, false))
    && Joi.Optional(d, "admin", Joi.IsBoolean)
    && Joi.Optional(d, "pm", Joi.IsBoolean)
  }

  /** A login body passes the add schema, and the e-mail and password of an
      add body form a login body: the two impose the same constraints on
      those keys. */
  lemma LoginAndAddAgree(d: Doc)
    ensures LoginSchema(d) ==> AddSchema(d)
    ensures AddSchema(d) ==> LoginSchema(d - {"name", "phone", "admin", "pm"})
  {
  }

  /** Every key of the update schema is optional: the empty body passes,
      and dropping any key from an accepted body leaves an accepted body. */
  lemma UpdateUserSchemaKeysOptional(d: Doc, k: string)
    ensures UpdateUserSchema(map[])
    ensures UpdateUserSchema(d) ==> UpdateUserSchema(d - {k})
  {
  }
}

=== FILE: userschemas.dfy ===
/** The user schemas of schemas/userSchemas.js (the routes validate with
    the schemas of the user model instead). Joi's `.email()` check is the
    parameter `isEmail`; `.trim()` makes the other rules see the trimmed
    string. */
module UserSchemas {

  import opened Json
  import opened Text
  import Joi

  /** `Joi.string().trim().email()` */
  predicate IsTrimmedEmail(v: Value, isEmail: string -> bool) {
    Joi.IsTrimmedString(v, false) && isEmail(Trim(v.s))
  }

  /** `addSchema` */
  predicate AddSchema(d: Doc, isEmail: string -> bool) {
    && Joi.KeysAmong(d, {"email", "password", "name", "phone", "admin", "pm"})
    && Joi.Required(d, "email", v => IsTrimmedEmail(v, isEmail))
    && Joi.Required(d, "password", (v: Value) => v.Str? && 4 <= |Trim(v.s)| <= 22)
    && Joi.Optional(d, "name", v => Joi.IsTrimmedString(v, false))
    && Joi.Optional(d, "phone", v => Joi.IsTrimmedString(v, false))
    && Joi.Optional(d, "admin", Joi.IsBoolean)
    && Joi.Optional(d, "pm", Joi.IsBoolean)
  }

  /** `loginSchema`: no trimming here. */
  predicate LoginSchema(d: Doc, isEmail: string -> bool) {
    && Joi.KeysAmong(d, {"email", "password"})
    && Joi.Required(d, "email", v => Joi.IsString(v, false) && isEmail(v.s))
    && Joi.Required(d, "password", (v: Value) => v.Str? && 4 <= |v.s| <= 22)
  }

  /** The custom password rule of `updateUserSchema`, applied to the
      trimmed value: an empty value passes, any other needs 4 to 22
      characters. */
  predicate PasswordRule(value: string) {
    value == "" || (4 <= |value| <= 22)
  }

  /** `updateUserSchema`: every key optional; name, e-mail, password and
      phone may be "" (after trimming). */
  predicate UpdateUserSchema(d: Doc, isEmail: string -> bool) {
    && Joi.KeysAmong(d, {"name", "email", "password", "phone", "admin", "pm"})
    && Joi.Optional(d, "name", v => Joi.IsTrimmedString(v, true))
    && Joi.Optional(d, "email", (v: Value) => v.Str? && (Trim(v.s) == "" || isEmail(Trim(v.s))))
    && Joi.Optional(d, "password", (v: Value) => v.Str? && (Trim(v.s) == "" || PasswordRule(Trim(v.s))))
    && Joi.Optional(d, "phone", v => Joi.IsTrimmedString(v, true))
    && Joi.Optional(d, "admin", Joi.IsBoolean)
    && Joi.Optional(d, "pm", Joi.IsBoolean)
  }

  /** A password in an update body passes iff, once trimmed, it is empty
      or 4 to 22 characters long. */
  lemma UpdatePasswordAccepted(p: string, isEmail: string -> bool)
    ensures UpdateUserSchema(map["password" := Str(p)], isEmail) <==>
      (Trim(p) == "" || 4 <= |Trim(p)| <= 22)
  {
    var d := map["password" := Str(p)];
    assert d.Keys == {"password"};
    assert Given(d, "password") && d["password"] == Str(p);
  }

  /** Name, e-mail, phone and password may all be sent empty. */
  lemma UpdateAllowsEmptyStrings(isEmail: string -> bool)
    ensures UpdateUserSchema(map["name" := Str(""), "email" := Str(""), "phone" := Str(""),
                                 "password" := Str("")], isEmail)
  {
    var e := map["name" := Str(""), "email" := Str(""), "phone" := Str(""), "password" := Str("")];
    assert e.Keys == {"name", "email", "phone", "password"};
    assert Trim("") == "";
  }

  /** Every key of the update schema is optional. */
  lemma UpdateKeysOptional(d: Doc, k: string, isEmail: string -> bool)
    ensures UpdateUserSchema(map[], isEmail)
    ensures UpdateUserSchema(d, isEmail) ==> UpdateUserSchema(d - {k}, isEmail)
  {
  }

  /** An add body's password is 4 to 22 characters once trimmed; a login
      body's is 4 to 22 characters as sent. */
  lemma PasswordBounds(d: Doc, isEmail: string -> bool)
    ensures AddSchema(d, isEmail) ==> 4 <= |Trim(d["password"].s)| <= 22
    ensures LoginSchema(d, isEmail) ==> 4 <= |d["password"].s| <= 22
  {
  }
}

=== FILE: userservices.dfy ===
/** `userServices`: registering, logging in and out, reissuing tokens,
    updating one's own record, and the admin's delete and edit of other
    users.

    `hash` stands for `bcrypt.hash` and `compare(plain, stored)` for
    `bcrypt.compare`; a bcrypt hash matches the password it was made from,
    which the lemmas that need it take as a precondition. The two tokens a
    login issues are parameters, as is the id a new record receives.

    Two branches of the source, the password rehash of `updateUserDataService`
    and of `editUserDataService`, read an identifier that is never declared,
    and the edit service turns every error into 501. Both are modelled as
    written (`UpdateUserAsWritten`, `EditUserAsWritten`) and as evidently
    intended (`UpdateUser`, `EditUser`); the controllers use the latter.
 */
module UserServices {

  import opened Wrappers
  import opened Json
  import opened UserModel
  import opened Db

  const EmailInUse: string := "Email in use"
  const WrongCredentials: string := "Email or password is wrong"
  const UserNotFound: string := "User not found"

  /** Some stored user has this e-mail (`User.findOne({ email })`). */
  predicate EmailTaken(users: map<Id, User>, email: string) {
    exists id :: id in users && users[id].email == email
  }

  /** `addDataService`: refuses an e-mail in use with 409 and creates
      nothing; otherwise stores the new user with the hash of the password.
      An empty e-mail or hash fails the record's required validators. */
  function AddUser(s: Store, email: string, name: Option<string>, phone: Option<string>, password: string,
                   admin: Option<bool>, pm: Option<bool>, hash: string -> string, newId: Id)
    : (r: Result<(Store, User)>)
    requires newId !in s.users
    ensures EmailTaken(s.users, email) ==> r == Throw(409, EmailInUse)
    ensures r.Ok? <==> !EmailTaken(s.users, email) && email != "" && hash(password) != ""
    ensures r.Ok? ==>
      var u := r.value.1;
      && u.email == email && u.password == hash(password)
      && u.name == name && u.phone == phone
      && u.admin == (admin == Some(true)) && u.pm == (pm == Some(true))
      && u.token == None && u.refreshToken == None
      && r.value.0 == s.(users := s.users[newId := u])
    ensures r.Ok? && EmailsUnique(s.users) ==> EmailsUnique(r.value.0.users)
  {
    if EmailTaken(s.users, email) then Throw(409, EmailInUse)
    else
      var u := NewUser(email, name, phone, hash(password), admin, pm);
      if !HasRequiredFields(u) then Throw(ServerError, "users validation failed")
      else Ok((s.(users := s.users[newId := u]), u))
  }

  /** `generateTokens`: both tokens of the user are replaced; the updated
      record is returned, or nothing when the user is gone. */
  function IssueTokens(s: Store, id: Id, token: string, refreshToken: string)
    : (r: (Store, Option<User>))
    ensures id in s.users ==>
      r.1 == Some(s.users[id].(token := Some(token), refreshToken := Some(refreshToken))) &&
      r.0 == s.(users := s.users[id := r.1.value])
    ensures id !in s.users ==> r == (s, None)
  {
    if id !in s.users then (s, None)
    else
      var u := s.users[id].(token := Some(token), refreshToken := Some(refreshToken));
      (s.(users := s.users[id := u]), Some(u))
  }

  /** `loginDataService`: an unknown e-mail and a wrong password fail alike;
      on success the user found by e-mail gets the two new tokens. Ghost
      because `findOne` picks some matching record. */
  ghost function Login(s: Store, email: string, password: string, compare: (string, string) -> bool,
                       token: string, refreshToken: string)
    : (r: Result<(Store, Id, User)>)
    ensures !EmailTaken(s.users, email) ==> r == Throw(401, WrongCredentials)
    ensures r.Err? ==> r == Throw(401, WrongCredentials)
    ensures r.Ok? ==>
      var (s1, id, u) := r.value;
      && id in s.users && s.users[id].email == email
      && compare(password, s.users[id].password)
      && u == s.users[id].(token := Some(token), refreshToken := Some(refreshToken))
      && s1 == s.(users := s.users[id := u])
    ensures (EmailTaken(s.users, email) && forall id :: id in s.users && s.users[id].email == email ==>
               compare(password, s.users[id].password)) ==> r.Ok?
    ensures (forall id :: id in s.users && s.users[id].email == email ==>
              !compare(password, s.users[id].password)) ==> r == Throw(401, WrongCredentials)
  {
    if !EmailTaken(s.users, email) then Throw(401, WrongCredentials)
    else
      var id :| id in s.users && s.users[id].email == email;
      if !compare(password, s.users[id].password) then Throw(401, WrongCredentials)
      else
        var (s1, u) := IssueTokens(s, id, token, refreshToken);
        Ok((s1, id, u.value))
  }

  /** A user registered with a password can log in with it, provided the
      stored hash matches the password it was made from; the stored record
      then holds the issued tokens. */
  lemma AddThenLogin(s: Store, email: string, password: string, hash: string -> string,
                     compare: (string, string) -> bool, newId: Id, token: string, refreshToken: string)
    requires newId !in s.users && EmailsUnique(s.users)
    requires compare(password, hash(password))
    requires AddUser(s, email, None, None, password, None, None, hash, newId).Ok?
    ensures var s1 := AddUser(s, email, None, None, password, None, None, hash, newId).value.0;
      var r := Login(s1, email, password, compare, token, refreshToken);
      && r.Ok?
      && r.value.1 == newId
      && r.value.0.users[newId].token == Some(token)
      && r.value.0.users[newId].refreshToken == Some(refreshToken)
  {
    var s1 := AddUser(s, email, None, None, password, None, None, hash, newId).value.0;
    assert s1.users[newId].email == email;
    assert EmailsUnique(s1.users);
  }

  /** `logoutUserDataService`: both tokens become null; nothing else
      changes. */
  function Logout(s: Store, id: Id): (s1: Store)
    ensures id in s.users ==>
      s1 == s.(users := s.users[id := s.users[id].(token := None, refreshToken := None)])
    ensures id !in s.users ==> s1 == s
    ensures s1.projects == s.projects && s1.works == s.works
    ensures s1.users.Keys == s.users.Keys
    ensures forall other :: other in s.users && other != id ==> s1.users[other] == s.users[other]
  {
    if id !in s.users then s
    else s.(users := s.users[id := s.users[id].(token := None, refreshToken := None)])
  }

  /** Logging out twice is logging out once. */
  lemma LogoutIdempotent(s: Store, id: Id)
    ensures Logout(Logout(s, id), id) == Logout(s, id)
  {
    if id in s.users {
      var u := s.users[id].(token := None, refreshToken := None);
      assert Logout(s, id).users[id] == u;
      assert u.(token := None, refreshToken := None) == u;
      assert Logout(s, id).users[id := u] == Logout(s, id).users;
    }
  }

  /** `regenerateTokenDataService` */
  function RegenerateTokens(s: Store, current: Option<Id>, token: string, refreshToken: string)
    : (r: Result<(Store, Option<User>)>)
    ensures current.None? ==> r == Throw(401, "User is not found")
    ensures current.Some? ==> r == Ok(IssueTokens(s, current.value, token, refreshToken))
  {
    if current.None? then Throw(401, "User is not found")
    else Ok(IssueTokens(s, current.value, token, refreshToken))
  }

  // ---------------------------------------------------------------------
  // Patching a user record (`User.findByIdAndUpdate(id, newData)`).

  /** An optional string path: a string sets it, `null` clears it. */
  function OptStrOr(d: Doc, k: string, current: Option<string>): (r: Option<string>)
    ensures k in d && d[k].Str? ==> r == Some(d[k].s)
    ensures k in d && d[k].Null? ==> r == None
    ensures !(k in d && (d[k].Str? || d[k].Null?)) ==> r == current
  {
    if k in d && d[k].Str? then Some(d[k].s)
    else if k in d && d[k].Null? then None
    else current
  }

  function BoolOr(d: Doc, k: string, current: bool): (r: bool)
    ensures !(k in d && d[k].Bool?) ==> r == current
  {
    if k in d && d[k].Bool? then d[k].b else current
  }

  /** An optional string path after an update: a string sets it, `null`
      clears it, anything else (an absent key included) keeps it. */
  predicate OptionalPathUpdated(d: Doc, k: string, before: Option<string>, after: Option<string>) {
    if k in d && d[k].Str? then after == Some(d[k].s)
    else if k in d && d[k].Null? then after == None
    else after == before
  }

  /** The user record with every declared path the body gives set. */
  function ApplyUserUpdate(u: User, d: Doc): (v: User)
    ensures "email" in d && d["email"].Str? ==> v.email == d["email"].s
    ensures !("email" in d && d["email"].Str?) ==> v.email == u.email
    ensures "password" in d && d["password"].Str? ==> v.password == d["password"].s
    ensures !("password" in d && d["password"].Str?) ==> v.password == u.password
    ensures OptionalPathUpdated(d, "name", u.name, v.name)
    ensures OptionalPathUpdated(d, "phone", u.phone, v.phone)
    ensures OptionalPathUpdated(d, "avatarURL", u.avatarURL, v.avatarURL)
    ensures OptionalPathUpdated(d, "token", u.token, v.token)
    ensures OptionalPathUpdated(d, "refreshToken", u.refreshToken, v.refreshToken)
    ensures "admin" in d && d["admin"].Bool? ==> v.admin == d["admin"].b
    ensures !("admin" in d && d["admin"].Bool?) ==> v.admin == u.admin
    ensures "pm" in d && d["pm"].Bool? ==> v.pm == d["pm"].b
    ensures !("pm" in d && d["pm"].Bool?) ==> v.pm == u.pm
    ensures d == map[] ==> v == u
  {
    User(StrOr(d, "email", u.email), StrOr(d, "password", u.password),
         OptStrOr(d, "name", u.name), OptStrOr(d, "phone", u.phone), OptStrOr(d, "avatarURL", u.avatarURL),
         BoolOr(d, "admin", u.admin), BoolOr(d, "pm", u.pm),
         OptStrOr(d, "token", u.token), OptStrOr(d, "refreshToken", u.refreshToken))
  }

  /** The body sets an e-mail that another user already has: the unique
      index rejects the write. */
  predicate EmailClash(users: map<Id, User>, id: Id, d: Doc) {
    "email" in d && d["email"].Str? &&
    exists other :: other in users && other != id && users[other].email == d["email"].s
  }

  /** The write inside the services' `try`: a missing record gives no
      result, a duplicate e-mail is a store error (which the services'
      `catch` turns into 501), anything else is patched. */
  function Patch(s: Store, id: Id, d: Doc): (r: Result<(Store, Option<User>)>)
    ensures id !in s.users ==> r == Ok((s, None))
    ensures id in s.users && EmailClash(s.users, id, d) ==> r.FailsWith(501)
    ensures id in s.users && !EmailClash(s.users, id, d) ==>
      r == Ok((s.(users := s.users[id := ApplyUserUpdate(s.users[id], d)]),
               Some(ApplyUserUpdate(s.users[id], d))))
    ensures r.Ok? ==> r.value.0.users.Keys == s.users.Keys
    ensures r.Ok? ==> forall other :: other in s.users && other != id ==> r.value.0.users[other] == s.users[other]
    ensures r.Ok? && EmailsUnique(s.users) ==> EmailsUnique(r.value.0.users)
  {
    if id !in s.users then Ok((s, None))
    else if EmailClash(s.users, id, d) then Throw(501, "E11000 duplicate key error")
    else
      var u := ApplyUserUpdate(s.users[id], d);
      Ok((s.(users := s.users[id := u]), Some(u)))
  }

  /** `updateUserDataService` as written: a truthy password reaches the
      rehash line, whose undeclared `password` throws a ReferenceError
      before the `try`, which the client sees as 500. */
  function UpdateUserAsWritten(s: Store, current: Option<Id>, newData: Doc)
    : (r: Result<(Store, Option<User>)>)
    ensures current.None? ==> r == Throw(401, UserNotFound)
    ensures current.Some? && Truthy(FieldOf(newData, "password")) ==> r.FailsWith(ServerError)
    ensures current.Some? && !Truthy(FieldOf(newData, "password")) ==> r == Patch(s, current.value, newData)
  {
    if current.None? then Throw(401, UserNotFound)
    else if Truthy(FieldOf(newData, "password")) then Throw(ServerError, "password is not defined")
    else Patch(s, current.value, newData)
  }

  /** The body with its password replaced by the hash of it, when it gives
      a non-empty one. */
  function HashPassword(d: Doc, hash: string -> string): (r: Doc)
    requires !Truthy(FieldOf(d, "password")) || d["password"].Str?
    ensures Truthy(FieldOf(d, "password")) ==> r == d["password" := Str(hash(d["password"].s))]
    ensures !Truthy(FieldOf(d, "password")) ==> r == d
    ensures r.Keys == d.Keys
    ensures forall k :: k in d && k != "password" ==> r[k] == d[k]
  {
    if Truthy(FieldOf(d, "password")) then d["password" := Str(hash(d["password"].s))] else d
  }

  /** `updateUserDataService` as evidently intended: a new password is
      stored hashed. A password that is not a string makes bcrypt throw
      before the `try`, which is 500. */
  function UpdateUser(s: Store, current: Option<Id>, newData: Doc, hash: string -> string)
    : (r: Result<(Store, Option<User>)>)
    ensures current.None? ==> r == Throw(401, UserNotFound)
    ensures current.Some? && Truthy(FieldOf(newData, "password")) && !newData["password"].Str? ==>
      r.FailsWith(ServerError)
    ensures current.Some? && Truthy(FieldOf(newData, "password")) && newData["password"].Str? &&
            current.value in s.users && !EmailClash(s.users, current.value, newData) ==>
      r.Ok? && r.value.1.Some? && r.value.1.value.password == hash(newData["password"].s)
    ensures current.Some? && !Truthy(FieldOf(newData, "password")) ==> r == Patch(s, current.value, newData)
    ensures r.Ok? ==> current.Some? && (!Truthy(FieldOf(newData, "password")) || newData["password"].Str?) &&
                      r == Patch(s, current.value, HashPassword(newData, hash))
    ensures r.Ok? && EmailsUnique(s.users) ==> EmailsUnique(r.value.0.users)
  {
    if current.None? then Throw(401, UserNotFound)
    else if Truthy(FieldOf(newData, "password")) && !newData["password"].Str? then
      Throw(ServerError, "data must be a string")
    else
      var d := HashPassword(newData, hash);
      assert EmailClash(s.users, current.value, d) == EmailClash(s.users, current.value, newData);
      Patch(s, current.value, d)
  }

  /** `deleteUserDataService`: a malformed id is 404, deleting oneself is
      409 and deletes nothing, a missing user is 404; otherwise the record
      is removed and returned as it was. */
  function DeleteUser(s: Store, id: Id, current: Id, validId: Id -> bool): (r: Result<(Store, User)>)
    ensures !validId(id) ==> r == Throw(404, UserNotFound)
    ensures validId(id) && id == current ==> r == Throw(409, "Can't delete current user!")
    ensures validId(id) && id != current && id !in s.users ==> r == Throw(404, UserNotFound)
    ensures r.Ok? <==> validId(id) && id != current && id in s.users
    ensures r.Ok? ==> r.value.1 == s.users[id] && r.value.0 == s.(users := s.users - {id})
    ensures r.Ok? ==> current in s.users ==> current in r.value.0.users
    ensures r.Ok? && EmailsUnique(s.users) ==> EmailsUnique(r.value.0.users)
  {
    if !validId(id) then Throw(404, UserNotFound)
    else if id == current then Throw(409, "Can't delete current user!")
    else if id !in s.users then Throw(404, UserNotFound)
    else Ok((s.(users := s.users - {id}), s.users[id]))
  }

  /** `throw HttpError(501, error)` in the edit service's `catch`. */
  function Rewrap<T>(r: Result<T>): (q: Result<T>)
    ensures r.Ok? ==> q == r
    ensures r.Err? ==> q == Err(HttpError(501, r.error.message))
  {
    if r.Ok? then r else Err(HttpError(501, r.error.message))
  }

  /** `editUserDataService` as written: every error raised inside the
      `try`, its own 404 and 409 included, reaches the client as 501. */
  function EditUserAsWritten(s: Store, id: Id, newData: Doc, current: Id, validId: Id -> bool)
    : (r: Result<(Store, Option<User>)>)
    ensures r.Err? ==> r.FailsWith(501)
    ensures r.Ok? <==> validId(id) && id != current && !Truthy(FieldOf(newData, "password")) &&
                       Patch(s, id, newData).Ok?
    ensures r.Ok? ==> r == Patch(s, id, newData)
  {
    Rewrap(
      if !validId(id) then Throw(404, UserNotFound)
      else if id == current then Throw(409, "Can't edit current user!")
      else if Truthy(FieldOf(newData, "password")) then Throw(ServerError, "password is not defined")
      else Patch(s, id, newData))
  }

  /** `editUserDataService` as evidently intended: its own 404 and 409
      reach the client, a new password is stored hashed, and only the
      store's errors (and bcrypt's) become 501. */
  function EditUser(s: Store, id: Id, newData: Doc, current: Id, validId: Id -> bool, hash: string -> string)
    : (r: Result<(Store, Option<User>)>)
    ensures !validId(id) ==> r == Throw(404, UserNotFound)
    ensures validId(id) && id == current ==> r == Throw(409, "Can't edit current user!")
    ensures validId(id) && id != current && Truthy(FieldOf(newData, "password")) && !newData["password"].Str? ==>
      r.FailsWith(501)
    ensures validId(id) && id != current && Truthy(FieldOf(newData, "password")) && newData["password"].Str? &&
            id in s.users && !EmailClash(s.users, id, newData) ==>
      r.Ok? && r.value.1.Some? && r.value.1.value.password == hash(newData["password"].s)
    ensures validId(id) && id != current && !Truthy(FieldOf(newData, "password")) ==> r == Patch(s, id, newData)
    ensures r.Ok? ==> validId(id) && id != current &&
                      (!Truthy(FieldOf(newData, "password")) || newData["password"].Str?) &&
                      r == Patch(s, id, HashPassword(newData, hash))
    ensures r.Ok? && current in s.users ==>
      current in r.value.0.users && r.value.0.users[current] == s.users[current]
    ensures r.Ok? && EmailsUnique(s.users) ==> EmailsUnique(r.value.0.users)
  {
    if !validId(id) then Throw(404, UserNotFound)
    else if id == current then Throw(409, "Can't edit current user!")
    else if Truthy(FieldOf(newData, "password")) && !newData["password"].Str? then
      Throw(501, "data must be a string")
    else
      var d := HashPassword(newData, hash);
      assert EmailClash(s.users, id, d) == EmailClash(s.users, id, newData);
      Patch(s, id, d)
  }

  /** Finding: changing one's password through the update service, as
      written, always fails with 500, though the body is valid and the user
      exists; the corrected service stores the hash of the new password. */
  lemma PasswordChangeFailsAsWritten(s: Store, id: Id, p: string, hash: string -> string)
    requires id in s.users && p != ""
    ensures UpdateUserAsWritten(s, Some(id), map["password" := Str(p)]).FailsWith(ServerError)
    ensures var r := UpdateUser(s, Some(id), map["password" := Str(p)], hash);
      r.Ok? && r.value.1 == Some(s.users[id].(password := hash(p)))
  {
    var d := map["password" := Str(p)];
    assert !EmailClash(s.users, id, d);
    assert HashPassword(d, hash) == map["password" := Str(hash(p))];
    assert ApplyUserUpdate(s.users[id], map["password" := Str(hash(p))]) == s.users[id].(password := hash(p));
  }

  /** Finding: an admin editing their own record through the edit service,
      as written, gets 501 where the service means 409; an admin setting
      another user's password gets 501 too. */
  lemma EditSelfIs501AsWritten(s: Store, id: Id, other: Id, d: Doc, p: string, validId: Id -> bool,
                               hash: string -> string)
    requires validId(id) && validId(other) && other != id && other in s.users && p != ""
    ensures EditUserAsWritten(s, id, d, id, validId).FailsWith(501)
    ensures EditUser(s, id, d, id, validId, hash).FailsWith(409)
    ensures EditUserAsWritten(s, other, map["password" := Str(p)], id, validId).FailsWith(501)
    ensures EditUser(s, other, map["password" := Str(p)], id, validId, hash).Ok?
  {
    var e := map["password" := Str(p)];
    assert !EmailClash(s.users, other, e);
  }

  /** `safeUserCloneDataService`: exactly `token`, `refreshToken` and
      `password` are removed, every other field is kept as it was. */
  function SafeUserClone(d: Doc): (r: Doc)
    ensures r.Keys == d.Keys - {"token", "refreshToken", "password"}
    ensures forall k :: k in r ==> r[k] == d[k]
  {
    d - {"token", "refreshToken", "password"}
  }

  /** The clone of a stored user, as every user response carries it: the
      document less its secrets. */
  function SafeUser(id: Id, u: User): (r: Doc)
    ensures "password" !in r && "token" !in r && "refreshToken" !in r
    ensures r == PublicFields(id, u)
  {
    var d := ToObject(id, u);
    var r := SafeUserClone(d);
    assert r.Keys == PublicFields(id, u).Keys;
    r
  }

  /** The clone keeps the id, the e-mail and both role flags, and does not
      depend on the secrets at all: two users differing only in password
      and tokens have the same clone. */
  lemma SafeUserHidesSecrets(id: Id, u: User, password: string, token: Option<string>, refreshToken: Option<string>)
    ensures SafeUser(id, u)["_id"] == Str(id) && SafeUser(id, u)["email"] == Str(u.email)
    ensures SafeUser(id, u)["admin"] == Bool(u.admin) && SafeUser(id, u)["pm"] == Bool(u.pm)
    ensures SafeUser(id, u.(password := password, token := token, refreshToken := refreshToken)) == SafeUser(id, u)
  {
  }
}

=== FILE: wrappers.dfy ===
/** Failure-carrying results for the service layer.

    Every service of the API either returns a value or throws an error that
    the application's error handler turns into an HTTP status. Errors thrown
    with `HttpError(status, message)` keep their status; any other thrown
    error (a Mongoose cast or validation error, a TypeError, a
    ReferenceError) reaches the client as 500, the handler's default.
 */
module Wrappers {

  datatype Option<+T> = None | Some(value: T)

  /** An error as the application's error handler sees it. */
  datatype HttpError = HttpError(status: int, message: string)

  /** The status the error handler gives an error that carries none. */
  const ServerError: int := 500

  datatype Result<+T> = Ok(value: T) | Err(error: HttpError) {

    predicate IsFailure() {
      Err?
    }

    function PropagateFailure<U>(): Result<U>
      requires Err?
    {
      Err(error)
    }

    function Extract(): T
      requires Ok?
    {
      value
    }

    /** True if this is a failure with the given status. */
    predicate FailsWith(status: int) {
      Err? && error.status == status
    }
  }

  /** `throw HttpError(status, message)` */
  function Throw<T>(status: int, message: string): (r: Result<T>)
    ensures r.FailsWith(status) && r.error.message == message
  {
    Err(HttpError(status, message))
  }
}
